=== FILE: README.md ===
# Project delivery dashboard — a verified model of its data engine

The dashboard (`script.js`) keeps a collection of project-delivery records.
Each record has a name, an asset type (`app`, `miniprogram`, `wechat`, `h5`),
a test status (`initial-test`, `re-test`), an optional `YYYY-MM-DD` delivery
date, a privacy-issue count, a security-issue count and remarks. The page shows
four summary cards, a per-asset-type issue chart and a month report. It filters
the table by month and by card, and keeps the collection in the canonical order:
dated records first, by date, then undated ones. Records can be added, edited and
deleted. The collection is saved to browser storage, exported to a spreadsheet and
imported from a spreadsheet or a JSON file.

This project models that engine in Dafny and proves what it promises:

- `records.dfy`: the record, the two label tables, their inverses and the import fallbacks.
- `seqs.dfy`: `filter` and `reduce`. A filter is an order-preserving subsequence.
- `ordering.dfy`: the canonical order, the comparator, and a sort method proved to return a
  sorted permutation.
- `filters.dfy`: the month and card filter pipeline and the row highlight.
- `aggregation.dfy`: the summary cards, the chart series, the month report with its name
  tally, and the issue-count class.
- `text.dfy`: `trim`, `parseInt(…, 10) || 0` and the decimal rendering of integers.
- `calendar.dfy`: `formatExcelDate`. Day serials become proleptic Gregorian dates, through
  a days-to-date split and an independent closed-form count in the other direction. The two
  are proved inverse.
- `transfer.dfy`: spreadsheet rows, the export and import mappings, stored records and their
  backfill, the JSON payload, and the edit form.
- `dashboard.dfy`: the class `Dashboard` holding the module-level state (`projects`, the
  filtered view, `editingIndex`, `activeCardFilter`, the month input, the saved copy), with
  one method per routine that changes it.

`filteredProjects` holds the very objects of `projects`. Deleting compares objects with
`!==`, and editing finds the object with `findIndex(p => p === …)`. The model therefore keeps
the view as the positions `shown` of the visible records in `projects`. `Valid()` says the
view is the one `applyFilters` computes. Every user command that changes the collection or
the filters ends in a state where that holds; the others leave those fields unchanged.

## Model

| member | source | states |
|---|---|---|
| Records.Lookup | script.js:11-12 | a key has a value exactly when the table has an entry for it |
| Records.LookupInvert | script.js:349-350 | when the labels are distinct, the inverted table maps each key's label back to that key |
| Records.Invert | script.js:349-350 | `Object.fromEntries` of the swapped entries; what the inverted table is for is stated by `Records.LookupInvert`: with distinct labels it takes each label back to its key (no contract of its own) |
| Records.AssetTypeOfLabel | script.js:354 | `reverseAssetMap[label] \|\| 'app'` on own keys; what it yields is stated by `Records.ImportedKeysAreKnown`, `Records.AssetTypeRoundTrip` and `Records.UnknownLabelDefaults` (no contract of its own) |
| Records.StatusOfLabel | script.js:355 | `reverseStatusMap[label] \|\| 'initial-test'`; stated by the same three lemmas (no contract of its own) |
| Records.AssetTypeLabel | script.js:275 | `ASSET_TYPE_MAP[key] \|\| key`; `Records.AssetTypeRoundTrip` states that importing the label gives every key back (no contract of its own) |
| Records.StatusLabel | script.js:276 | `STATUS_MAP[key] \|\| key`; `Records.StatusRoundTrip` states the same for statuses (no contract of its own) |
| Records.LabelsAreDistinct | script.js:11-12 | the four asset-type labels are pairwise distinct, and so are the two status labels |
| Records.AssetTypeRoundTrip | script.js:273-276 | every asset-type key has a label, and importing that label gives the key back |
| Records.StatusRoundTrip | script.js:273-276 | every status key has a label, and importing that label gives the key back |
| Records.UnknownLabelDefaults | script.js:354-355 | a label not in the table imports as `app` (asset type) or `initial-test` (status) |
| Records.ImportedKeysAreKnown | script.js:354-355 | whatever the cell text, the imported asset type and status are known keys |
| Records.ReverseLookupAsWritten | script.js:349-355 | the lookup as written yields an inherited `Object.prototype` member exactly when the label is not in the table but names such a member |
| Records.InheritedLabelImported | script.js:349-355 | the labels `constructor` and `toString` import as inherited members as written, and as the default keys in the corrected lookup |
| Records.ReverseLookupAgrees | script.js:349-355 | for every label that names no inherited member, the lookup as written gives the corrected lookup's key |
| Seqs.Filter | script.js:76 | a filter keeps only elements of the input that satisfy the predicate, and is never longer |
| Seqs.FilterIsSubsequence | script.js:76-83 | a filter is the input read at strictly increasing positions, and those are exactly the positions whose element satisfies the predicate |
| Seqs.FilterMembership | script.js:76-83 | an element is kept if and only if it is in the input and satisfies the predicate |
| Seqs.MapAll | script.js:352 | a `map` whose callback may throw: it fails exactly when the conversion of some element fails, and otherwise gives one result per element; `Seqs.MapAllPointwise` gives each result |
| Ordering.LexLeTotal | script.js:192 | any two date strings are ordered one way or the other |
| Ordering.LexLeTransitive | script.js:192 | the date-string order is transitive |
| Ordering.OrderedMeaning | script.js:188-194 | in a sorted collection no dated record comes after an undated one, and dated records are in non-decreasing date order, for every pair of positions |
| Ordering.Insert | script.js:188-194 | inserting into a sorted sequence keeps it sorted and adds exactly that record to its multiset |
| Ordering.InsertWithDate | script.js:188-194 | inserting into a sorted sequence puts the record after every record with the same date and leaves the order within every date class unchanged |
| Ordering.InsertAfterTie | script.js:188-194 | of two records with the same date, the one inserted later stands after the other |
| Ordering.SortRecords | script.js:188-194 | the result is sorted in the canonical order, is a permutation of the input, and keeps records with the same date (and the undated ones) in their input order, as the stable `Array.prototype.sort` does |
| Ordering.LexCompareMeaning | script.js:192 | `localeCompare` on ASCII strings is at most 0 exactly when the first string is not after the second; it is antisymmetric and 0 only on equal strings |
| Ordering.LexCompare | script.js:192 | the character-order stand-in for `localeCompare`; its sign is stated by `Ordering.LexCompareMeaning` (no contract of its own) |
| Ordering.CompareAsWrittenInconsistent | script.js:189-193 | the comparator as written answers "after" both ways for two undated records |
| Ordering.CompareAsWritten | script.js:189-193 | the comparator as written; `Ordering.CompareAsWrittenInconsistent` shows it answers "after" both ways, and `Ordering.CompareConsistent` that it agrees with the corrected one whenever a record is dated (no contract of its own) |
| Ordering.Compare | script.js:189-193 | the corrected comparator is at most 0 exactly when the first record may precede the second in the canonical order |
| Ordering.CompareConsistent | script.js:189-193 | the corrected comparator is antisymmetric, "not after" and "equal" are transitive, it agrees with the comparator as written whenever one record is dated, and it calls two records equal exactly when their dates are the same |
| Filters.EffectiveCategory | script.js:76-78 | a selected month forces the card filter to `total`; without one the card filter stays |
| Filters.InMonth | script.js:77 | a record belongs to a month (the same test recurs at script.js line 176) when its date is non-empty and starts with the month text; used by `Filters.ApplyFiltersMeaning` and `Aggregation.MonthlyReportMeaning` (no contract of its own) |
| Filters.InCategory | script.js:82-85 | the card stage: `re-test` status, a positive privacy or security count, or every record for `total`; used by `Filters.ApplyFiltersMeaning` and `Filters.CardFilterOnly` (no contract of its own) |
| Filters.ApplyFiltersIsOneFilter | script.js:72-86 | the month stage followed by the card stage is one filter by both conditions |
| Filters.ApplyFilters | script.js:72-86 | the month stage, the forced `total`, then the card stage, as `applyFilters` runs them; its meaning is stated by `Filters.ApplyFiltersMeaning` and `Filters.ApplyFiltersIsOneFilter` (no contract of its own) |
| Filters.ApplyFiltersMeaning | script.js:72-86 | the view is the collection at strictly increasing positions, exactly those whose record is in the month (if one is set) and passes the card; with a month set the view is exactly the month-filtered list |
| Filters.CardFilterOnly | script.js:80-84 | without a month the view is the card filter alone, and under `total` it is the whole collection |
| Filters.ViewRecordsQualify | script.js:76-84 | every shown record is in the collection, in the month when one is set, and passes the effective card filter |
| Filters.HighlightedRows | script.js:124 | under the privacy or security card every shown row is highlighted; under the other cards none is |
| Filters.IsHighlighted | script.js:124 | a row is highlighted under the privacy or security card when its count of that kind is positive; stated by `Filters.HighlightedRows` (no contract of its own) |
| Aggregation.UpdateStats | script.js:143-147 | the total card is the collection's length and the re-test card never exceeds it |
| Aggregation.ChartSeries | script.js:161-164 | each chart series has one value per asset-type key |
| Aggregation.TypeTotal | script.js:163-164 | the chart's per-type sum of one issue count; `Aggregation.TypeTotalsSplit` states that the per-type sums add up to the card total (no contract of its own) |
| Aggregation.ChartAddsUpToStats | script.js:143-164 | when every record has a known asset type, the four bars of each series add up to the privacy or security card |
| Aggregation.TypeTotalsSplit | script.js:163-164 | the four per-type totals of a series add up to the overall total of that issue count |
| Aggregation.BumpCounts | script.js:181 | adding one name to a tally adds 1 to the sum and to that name's count only |
| Aggregation.Bump | script.js:181 | the corrected reduce step over own keys; stated by `Aggregation.BumpCounts` and `Aggregation.BumpNames` (no contract of its own) |
| Aggregation.BumpNames | script.js:181 | adding one name to a tally keeps its names distinct, and every name in it is the added one or was there before |
| Aggregation.BumpPositive | script.js:181 | adding one name to a tally whose counts are all at least 1 keeps them so |
| Aggregation.TallyNamesMeaning | script.js:181 | a tally has distinct names, lists only names that occur (every count is at least 1), each name's count is its number of records, and the counts add up to the number of records |
| Aggregation.MonthlyReport | script.js:172-181 | there is no report without a month; otherwise there is one block per asset type |
| Aggregation.AssetProjects | script.js:176-180 | the month's records of one asset type; `Aggregation.MonthlyReportMeaning` states that membership is exactly that type and that month (no contract of its own) |
| Aggregation.TallyNames | script.js:181 | the name tally with own entries only; stated by `Aggregation.TallyNamesMeaning` (no contract of its own) |
| Aggregation.BumpAsWritten | script.js:181 | one step of the tally as written, starting an inherited name from a non-number; `Aggregation.BumpAgrees` states that it agrees with the corrected step on other names (no contract of its own) |
| Aggregation.TallyNamesAsWritten | script.js:181 | the tally as written; `Aggregation.InheritedNameGarbled` and `Aggregation.TallyAsWrittenAgrees` state where it differs from the corrected tally and where it agrees (no contract of its own) |
| Aggregation.MonthlyReportMeaning | script.js:176-181 | each block's header count equals the sum of its tallies, it lists only names that occur, each name's tally is its number of records of that type and month, and a record is counted exactly when it has that type and is in that month |
| Aggregation.InheritedNameGarbled | script.js:181 | one delivery named `toString` produces a non-number tally as written, and a count of 1 in the corrected tally |
| Aggregation.TallyAsWrittenAgrees | script.js:181 | when no name is an inherited member, the tally as written equals the corrected tally |
| Aggregation.IssueClassMonotone | script.js:397-401 | for non-negative counts the issue class never drops as the count grows, and only 0 is low |
| Aggregation.GetIssueClass | script.js:397-401 | 0 is low, 1 or 2 medium, more high; `Aggregation.IssueClassMonotone` states the order (no contract of its own) |
| Text.TrimMeaning | script.js:221 | `trim` keeps the piece of the input between a prefix and a suffix made only of white space; the piece neither starts nor ends with white space, and is empty exactly when the input is all white space |
| Text.Trim | script.js:221 | `String.prototype.trim`; stated by `Text.TrimMeaning` and `Text.TrimTrimmed` (no contract of its own) |
| Text.TrimTrimmed | script.js:221 | trimming text without surrounding white space changes nothing |
| Text.ParseIntDecimal | script.js:225-226 | `parseInt(String(n), 10)` is `n`, so the count coercion gives `n` back |
| Text.ParseInt | script.js:225-226 | `parseInt(s, 10)`, `None` standing for `NaN`; `Text.ParseIntDecimal` states that it reads back `String(n)` (no contract of its own) |
| Text.CoerceCount | script.js:225-226 | `parseInt(s, 10) \|\| 0`; same lemma (no contract of its own) |
| Calendar.CivilFromDaysValid | script.js:381-382 | every day count names a valid calendar date |
| Calendar.CivilFromDays | script.js:381-382 | the date `z` days after 1970-01-01; `Calendar.CivilFromDaysValid`, `Calendar.DaysFromCivilOfCivil` and `Calendar.CivilOfDaysFromCivil` state that it is valid and the inverse of `DaysFromCivil` (no contract of its own) |
| Calendar.DaysFromCivilNext | script.js:381-382 | the day after a valid date is valid and lies one day further from 1970-01-01, so `DaysFromCivil` counts days |
| Calendar.DaysFromCivilOfCivil | script.js:381-382 | counting days from 1970-01-01 to the date of `z` gives `z` back |
| Calendar.CivilOfDaysFromCivil | script.js:381-382 | the date of a valid date's day count is that date |
| Calendar.LongYearIsLeap | script.js:381-382 | a March-based year has a 29 February exactly when the following calendar year is a leap year |
| Calendar.IsoDateShape | script.js:382 | a date in the years 0 to 9999 renders as `YYYY-MM-DD` |
| Calendar.IsoDate | script.js:382 | the date part of `toISOString`; `Calendar.IsoDateShape` states its shape (no contract of its own) |
| Calendar.FormatExcelDate | script.js:375-385 | the conversion fails (`toISOString` throws) exactly for a number serial more than 100000000 days from 1970-01-01 |
| Calendar.FormatSerialMeaning | script.js:380-383 | a non-zero serial in range renders as the valid date lying `n - 25569` days after 1970-01-01 |
| Calendar.FormatSerialHasDate | script.js:380-383 | every non-zero serial in range has such a date |
| Calendar.FormatStrings | script.js:376-384 | an absent cell, serial 0 and any string not shaped `YYYY-MM-DD` give `''`; a `YYYY-MM-DD` string comes back unchanged |
| Calendar.IsDateShape | script.js:377 | the test `/^\d{4}-\d{2}-\d{2}$/`: ten characters, digits with dashes at positions 4 and 7; stated by `Calendar.FormatStrings` (no contract of its own) |
| Calendar.FormatIdempotent | script.js:375-385 | a rendered date in the years 0 to 9999 formats to itself again |
| Calendar.FormatEpoch | script.js:381-382 | serial 25569 is 1970-01-01 |
| Calendar.FormatSerial45000 | script.js:381-382 | serial 45000 is 2023-03-15 |
| Transfer.ExportRow | script.js:273-281 | an exported row has exactly the seven column labels |
| Transfer.ExportRows | script.js:267-271 | there is nothing to export exactly when the view and the collection are both empty; otherwise one row per record of the view, or of the collection when the view is empty |
| Transfer.ExportAll | script.js:273-281 | the row builder mapped over the exported records; `Transfer.ExportImportRows` and `Transfer.ImportOfExported` state that the rows read back as those records (no contract of its own) |
| Transfer.CellAssetType | script.js:354 | an imported asset type is always a known key, and the default when the cell holds no text |
| Transfer.CellStatus | script.js:355 | an imported status is always a known key, and the default when the cell holds no text |
| Transfer.CellCount | script.js:357-358 | a number cell imports as its own value, a text cell as its `parseInt` coercion, an absent cell as 0 |
| Transfer.CellText | script.js:353-359 | `row[column] \|\| ''` for the name and remarks; `Transfer.TextCellsRoundTrip` states that exported text comes back (no contract of its own) |
| Transfer.ImportRow | script.js:352-360 | a row fails exactly when its date cell cannot be rendered; otherwise its keys are known |
| Transfer.ImportRows | script.js:352-360 | the import fails exactly when some row fails; otherwise there is one record per row |
| Transfer.ImportRowsPointwise | script.js:352-360 | the imported records are the rows' records, in row order |
| Transfer.ExportImportRoundTrip | script.js:352-360 | importing an exported row gives the record back when its keys are known and its date is empty or `YYYY-MM-DD` |
| Transfer.ExportImportRows | script.js:266-281 | importing a whole export restores the exported records in order |
| Transfer.ImportOfExported | script.js:273-360 | importing the rows exported from any list of portable records gives back exactly that list, in order |
| Transfer.Backfill | script.js:44 | a missing count loads as 0 and a stored count loads unchanged |
| Transfer.CountOrZero | script.js:44 | `p.privacyIssues \|\| 0` on a stored count: a missing count is 0; stated by `Transfer.Backfill` and `Transfer.BackfillMissing` (no contract of its own) |
| Transfer.LoadSaved | script.js:32-44 | loading what was saved gives the same records |
| Transfer.Persist | script.js:34 | the stored form of a record, both counts present; with `Transfer.BackfillAll` stated by `Transfer.LoadSaved` (no contract of its own) |
| Transfer.BackfillAll | script.js:44 | one loaded record per stored record |
| Transfer.BackfillMissing | script.js:44 | a stored record with no counts loads with both counts 0 and every other field kept |
| Transfer.RecordOfForm | script.js:220-228 | the saved record's name and remarks have no surrounding white space, and each count is the `parseInt` of its field or 0 |
| Transfer.FormOf | script.js:204-214 | the form `showEditModal` fills, with what the selects and the date input keep; stated by `Transfer.EditSanitises` (no contract of its own) |
| Transfer.SelectValue | script.js:209-210 | assigning a select keeps the value when an option has it and gives `''` otherwise; stated by `Transfer.EditSanitises` (no contract of its own) |
| Transfer.DateInputValue | script.js:211 | assigning a date input keeps a valid date string and gives `''` otherwise; stated by `Transfer.EditSanitises` and `Transfer.EditClearsUnknown` (no contract of its own) |
| Transfer.EditSanitises | script.js:204-228 | opening a record for editing and saving it untouched trims the name and remarks, keeps the counts, and turns an asset type or status that is no key, or a date that is no valid date, into `''` |
| Transfer.EditUnchanged | script.js:204-228 | the edit gives the same record back when its name and remarks have no surrounding white space, its keys are known and its date is empty or valid |
| Transfer.EditClearsUnknown | script.js:208-211 | a record with asset type `foo`, status `x` and date `2024-13-45` loses all three on an edit |
| Transfer.BlankFormRejected | script.js:250-258 | the add dialog's blank form yields an empty name |
| App.Updated | script.js:230-234 | an edit replaces exactly the edited position; an add appends the record |
| App.Dashboard.FilteredProjects | script.js:72-86 | the records at the shown positions are exactly the view `applyFilters` computes |
| App.Dashboard.constructor | script.js:2-6 | the state starts empty, with no month filter and the `total` card |
| App.Dashboard.SaveToStorage | script.js:32-38 | storage holds the current collection, and nothing else changes |
| App.Dashboard.SortProjects | script.js:188-194 | the collection becomes a sorted permutation of itself with records of the same date in their previous order, and nothing else changes |
| App.Dashboard.LoadFromStorage | script.js:40-53 | a saved array replaces the collection, backfilled and stably sorted; anything else leaves it unchanged |
| App.Dashboard.ApplyFilters | script.js:72-86 | the view becomes current, and a selected month forces the `total` card |
| App.Dashboard.InitApp | script.js:15-29 | a non-empty saved collection is loaded stably sorted; otherwise the sample collection is used and saved; the month filter is the current month; a month forces the `total` card, and otherwise the card is kept |
| App.Dashboard.SetActiveCardFilter | script.js:90-103 | the card is selected (unless a month forces `total`) and the view is re-filtered |
| App.Dashboard.ClickCard | script.js:56-61 | a card click clears the month and shows exactly the records passing that card's filter |
| App.Dashboard.FilterByMonth | script.js:105 | with a month set, the card is `total` and the view is exactly the month's records |
| App.Dashboard.ClearFilter | script.js:106-109 | no month and the `total` card, so the whole collection is shown |
| App.Dashboard.ShowAddModal | script.js:196-202 | nothing is being edited and the form is blank |
| App.Dashboard.ShowEditModal | script.js:204-217 | the edited position is the one of the record in that row, and the form holds its fields; for a missing row nothing is edited |
| App.Dashboard.SaveProject | script.js:219-238 | an empty trimmed name changes nothing; otherwise the collection is the stably sorted permutation of the old one with the edited record replaced or the new one appended, and it is saved |
| App.Dashboard.DeleteProject | script.js:241-248 | once confirmed, exactly the record shown in that row leaves the collection and every other record keeps its order; a missing row deletes nothing; the selected card and month stay as they were |
| App.Dashboard.ClearAllData | script.js:387-393 | once confirmed, the collection, the view and the saved copy are empty; otherwise nothing changes; the selected card and month stay as they were |
| App.Dashboard.ImportData | script.js:306-318 | a confirmed array payload replaces the collection, stably sorted, saved and shown unfiltered; anything else changes nothing |
| App.Dashboard.ImportExcel | script.js:343-366 | a confirmed non-empty sheet replaces the collection with its records, stably sorted and with known keys, saved and shown unfiltered; an empty sheet or a failing date changes nothing |
| App.Dashboard.ExportToExcel | script.js:266-281 | the rows are those of the view when it is non-empty and of the whole collection otherwise, as `Transfer.ExportRows` gives them; there is nothing to export exactly when the collection is empty; reading the export back restores the exported records when their keys and dates are portable |

## Left out

- Rendering: the DOM, HTML strings, Chart.js and `feather`. The values they display are
  modelled: the view, the card figures, the chart series, the report blocks and the
  highlight. Their text is not.
- Browser storage and JSON text. The saved copy is an abstract value: parsed records, a
  non-array, or text that does not parse. A `setItem` failure (for example, over quota) is
  not modelled, so `App.Dashboard.SaveToStorage` always succeeds. Stored records whose text
  fields are missing or not strings are not modelled.
- The spreadsheet library. Rows are maps from column label to cell.
  `Transfer.ExportImportRows` assumes the library reads back the cells it wrote. Column
  widths, the sheet name and the file name are not modelled.
- Cells hold numbers or strings only. Boolean and date-typed cells are not modelled.
- Number cells hold integers only. The fractional part of a serial and its
  `Math.round(… * 86400 * 1000)` are not modelled, because they are floating point.
- `Transfer.CellText`: a non-zero number in the name or remarks column stays a number in the
  source. The model keeps its decimal text instead.
- `Transfer.CellCount`: `String(n)` switches to exponent notation from 1e21. The model
  assumes counts below that, and counts are unbounded integers rather than doubles.
- JSON import payloads are taken to be arrays of complete records. Array elements with
  missing or wrongly typed fields are not modelled.
- File pickers, `FileReader`, `confirm` and `alert`. Each confirmation is a boolean
  parameter, and each alert is the branch that changes nothing.
- The wall clock. The initial month is a parameter of `App.Dashboard.InitApp`, and the
  export file name is not modelled.
- The page markup is not part of this model. The model takes the asset-type and status
  selects to offer exactly the keys of the two tables, the values `clearForm` writes. It takes
  the date field to be a date input, which keeps only a valid date string and otherwise
  holds `''`. It takes the name and remarks fields to hold any text.
- Transfer.EditSanitises: does not model that a single-line text input drops line breaks
  inside the name when the value is assigned.
- `App.Dashboard.SaveProject` requires that the edited position still exists. The modal
  dialog covers the page between opening and saving, so the collection cannot shrink in
  between. Assigning past the end of the array, which leaves holes, is not modelled.
- `App.Dashboard.SortProjects`: the contract states the order that the corrected comparator
  defines (see Findings). With the comparator as written, `Array.prototype.sort` leaves the
  order implementation-defined. With the corrected comparator the sort is stable (ES2019):
  records with the same date, and the undated records, keep their relative order.
- `Aggregation.TallyNames` keeps names in order of first occurrence. `Object.entries` lists
  names that are array indices (such as `"2024"`) first, in ascending order. Only the
  display order is affected; the counts are not.
- `Records.AssetTypeLabel`: like the import, the export lookup `ASSET_TYPE_MAP[key] || key`
  on a key that names an inherited member (possible after a JSON import) yields that member.
  The model reads only the table's own entries.
- `Records.StatusLabel`: the same holds for `STATUS_MAP[p.status] || p.status` on a status
  that names an inherited member, such as `toString`. The model reads only the table's own
  entries.
- `Aggregation.MonthlyReport`, `Transfer.CellAssetType`, `Transfer.CellStatus` and
  `App.Dashboard.ImportExcel` use the corrected reverse lookup and name tally (see Findings).
  The code as written is modelled beside them by `Records.ReverseLookupAsWritten` and
  `Aggregation.TallyNamesAsWritten`.
- `localeCompare` on ASCII `YYYY-MM-DD` strings is plain character order. Locale-specific
  collation is not modelled.

## Findings

| source | as written | input that shows it | evidently intended | confidence | as-written member | corrected member |
|---|---|---|---|---|---|---|
| script.js:189-193 | the comparator returns 1 for two undated records in both orders, so it is not a consistent comparator and the sort order is implementation-defined | any two records with an empty delivery date | return 0 when both records are undated | not executed | Ordering.CompareAsWrittenInconsistent | Ordering.CompareConsistent |
| script.js:349-355 | `reverseAssetMap[label]` on a plain object returns an inherited member for labels such as `constructor`, and `\|\| 'app'` keeps it, so the record's asset type becomes the `Object` function | a sheet row whose 资产类型 cell reads `constructor` (or a 交付状态 cell reading `toString`) | fall back to `app` / `initial-test` for every label not in the table | not executed | Records.InheritedLabelImported | Records.ImportedKeysAreKnown |
| script.js:181 | `(acc[p.name] \|\| 0) + 1` starts from an inherited member for names such as `toString`, so the tally becomes the text `function toString() { [native code] }1` | a selected month with one delivery named `toString` | start every name's tally at 0 | not executed | Aggregation.InheritedNameGarbled | Aggregation.TallyNamesMeaning |

=== FILE: aggregation.dfy ===
/**
 * The figures the dashboard derives from the whole collection: the four
 * summary counts (`updateStats`, script.js:143-147), the per-asset-type
 * issue totals of the bar chart (`renderIssueTypeChart`, script.js:161-164),
 * the month report (`renderMonthlyDeliveryReport`, script.js:172-181) and
 * the issue-count class (`getIssueClass`, script.js:397-401).
 */
module Aggregation {
  import opened Records
  import opened Seqs
  import opened Filters

  // ---------------------------------------------------------------- summary cards

  datatype Stats = Stats(total: nat, reTest: nat, privacy: int, security: int)

  /** The four numbers of the summary cards, over the whole collection. */
  function UpdateStats(projects: seq<Record>): (st: Stats)
    ensures st.total == |projects|
    ensures st.reTest <= st.total
  {
    Stats(
      |projects|,
      |Filter(projects, (r: Record) => r.status == "re-test")|,
      Sum(projects, (r: Record) => r.privacyIssues),
      Sum(projects, (r: Record) => r.securityIssues))
  }

  // ---------------------------------------------------------------- issue chart

  datatype Issue = PrivacyIssue | SecurityIssue

  function IssueCount(r: Record, kind: Issue): int {
    match kind
    case PrivacyIssue => r.privacyIssues
    case SecurityIssue => r.securityIssues
  }

  /** `projects.reduce((sum, p) => sum + (p.assetType === key ? p[kind] : 0), 0)` */
  function TypeTotal(projects: seq<Record>, key: string, kind: Issue): int {
    Sum(projects, (r: Record) => if r.assetType == key then IssueCount(r, kind) else 0)
  }

  /** One data series of the chart: a total per asset type, in the key order of the table. */
  function ChartSeries(projects: seq<Record>, kind: Issue): (data: seq<int>)
    ensures |data| == |AssetKeys|
  {
    seq(|AssetKeys|, i requires 0 <= i < |AssetKeys| => TypeTotal(projects, AssetKeys[i], kind))
  }

  predicate KnownAssetTypes(projects: seq<Record>) {
    forall r :: r in projects ==> r.assetType in AssetKeys
  }

  /**
   * When every record carries one of the four asset-type keys, the chart's
   * four bars of each series add up to the corresponding summary card.
   */
  lemma {:induction false} ChartAddsUpToStats(projects: seq<Record>)
    requires KnownAssetTypes(projects)
    ensures Sum(ChartSeries(projects, PrivacyIssue), (x: int) => x) == UpdateStats(projects).privacy
    ensures Sum(ChartSeries(projects, SecurityIssue), (x: int) => x) == UpdateStats(projects).security
  {
    SeriesSum(projects, PrivacyIssue);
    SeriesSum(projects, SecurityIssue);
    TypeTotalsSplit(projects, PrivacyIssue);
    TypeTotalsSplit(projects, SecurityIssue);
    SumCongruent(projects, r => IssueCount(r, PrivacyIssue), (r: Record) => r.privacyIssues);
    SumCongruent(projects, r => IssueCount(r, SecurityIssue), (r: Record) => r.securityIssues);
  }

  lemma {:induction false} SeriesSum(projects: seq<Record>, kind: Issue)
    ensures Sum(ChartSeries(projects, kind), (x: int) => x)
         == TypeTotal(projects, "app", kind) + TypeTotal(projects, "miniprogram", kind)
          + TypeTotal(projects, "wechat", kind) + TypeTotal(projects, "h5", kind)
  {
    var d := ChartSeries(projects, kind);
    var id := (x: int) => x;
    assert AssetKeys == ["app", "miniprogram", "wechat", "h5"];
    assert d[..3][..2] == d[..2] && d[..2][..1] == d[..1] && d[..1][..0] == [];
    assert Sum(d, id) == Sum(d[..3], id) + d[3];
    assert Sum(d[..3], id) == Sum(d[..2], id) + d[2];
    assert Sum(d[..2], id) == Sum(d[..1], id) + d[1];
    assert Sum(d[..1], id) == Sum(d[..0], id) + d[0];
  }

  /** The four per-type totals of one series add up to the overall total of that series. */
  lemma {:induction false} TypeTotalsSplit(projects: seq<Record>, kind: Issue)
    requires KnownAssetTypes(projects)
    ensures TypeTotal(projects, "app", kind) + TypeTotal(projects, "miniprogram", kind)
          + TypeTotal(projects, "wechat", kind) + TypeTotal(projects, "h5", kind)
         == Sum(projects, r => IssueCount(r, kind))
  {
    if projects != [] {
      var n := |projects| - 1;
      assert forall r :: r in projects[..n] ==> r in projects;
      TypeTotalsSplit(projects[..n], kind);
      assert projects[n].assetType in ["app", "miniprogram", "wechat", "h5"];
    }
  }

  // ---------------------------------------------------------------- month report

  /**
   * `projectsInMonth.filter(p => p.assetType === key)`: the records of one
   * asset type delivered in the selected month.
   */
  function AssetProjects(projects: seq<Record>, month: string, key: string): seq<Record> {
    Filter(Filter(projects, r => InMonth(r, month)), (r: Record) => r.assetType == key)
  }

  /** A name tally: `[name, count]` entries in order of first occurrence. */
  type Tally = seq<(string, nat)>

  /** `{ ...acc, [name]: (acc[name] || 0) + 1 }` on a tally without inherited members. */
  function Bump(acc: Tally, name: string): Tally {
    if acc == [] then [(name, 1)]
    else if acc[0].0 == name then [(name, acc[0].1 + 1)] + acc[1..]
    else [acc[0]] + Bump(acc[1..], name)
  }

  /** `records.reduce((acc, p) => Bump(acc, p.name), {})` */
  function TallyNames(records: seq<Record>): Tally {
    if records == [] then [] else Bump(TallyNames(records[..|records| - 1]), records[|records| - 1].name)
  }

  /** The sum of all tallied counts. */
  function TallySum(t: Tally): nat {
    if t == [] then 0 else t[0].1 + TallySum(t[1..])
  }

  /** The tallied count of `name` (0 when it is absent). */
  function CountOf(t: Tally, name: string): nat {
    if t == [] then 0 else (if t[0].0 == name then t[0].1 else 0) + CountOf(t[1..], name)
  }

  predicate DistinctNames(t: Tally) {
    forall i, j :: 0 <= i < j < |t| ==> t[i].0 != t[j].0
  }

  /** The number of records called `name`. */
  function Occurrences(records: seq<Record>, name: string): nat {
    |Filter(records, (r: Record) => r.name == name)|
  }

  /** Adding one name to a tally adds 1 to the sum and to that name's count only. */
  lemma {:induction false} BumpCounts(acc: Tally, name: string)
    ensures TallySum(Bump(acc, name)) == TallySum(acc) + 1
    ensures forall m :: CountOf(Bump(acc, name), m) == CountOf(acc, m) + (if m == name then 1 else 0)
  {
    if acc != [] {
      var rest := acc[1..];
      if acc[0].0 == name {
        assert Bump(acc, name)[1..] == rest;
      } else {
        BumpCounts(rest, name);
        assert Bump(acc, name)[1..] == Bump(rest, name);
      }
    }
  }

  /** The names after a bump: still distinct, and each one is `name` or was there before. */
  lemma {:induction false} BumpNames(acc: Tally, name: string)
    requires DistinctNames(acc)
    ensures DistinctNames(Bump(acc, name))
    ensures forall i :: 0 <= i < |Bump(acc, name)| ==> Bump(acc, name)[i].0 == name || exists j :: 0 <= j < |acc| && acc[j].0 == Bump(acc, name)[i].0
  {
    if acc != [] && acc[0].0 != name {
      var rest := acc[1..];
      BumpNames(rest, name);
      var b := Bump(acc, name);
      assert b[1..] == Bump(rest, name);
      forall i | 0 <= i < |b| ensures b[i].0 == name || exists j :: 0 <= j < |acc| && acc[j].0 == b[i].0 {
        if i > 0 && b[i].0 != name {
          var j :| 0 <= j < |rest| && rest[j].0 == b[i].0;
          assert acc[j + 1].0 == b[i].0;
        }
      }
      forall i, j | 0 <= i < j < |b| ensures b[i].0 != b[j].0 {
        if i == 0 && b[j].0 != name {
          var k :| 0 <= k < |rest| && rest[k].0 == b[j].0;
          assert acc[k + 1].0 == b[j].0;
        }
      }
    }
  }

  /** A bump keeps every count at least 1. */
  lemma {:induction false} BumpPositive(acc: Tally, name: string)
    requires forall i :: 0 <= i < |acc| ==> acc[i].1 >= 1
    ensures forall i :: 0 <= i < |Bump(acc, name)| ==> Bump(acc, name)[i].1 >= 1
  {
    if acc != [] && acc[0].0 != name {
      BumpPositive(acc[1..], name);
      assert Bump(acc, name)[1..] == Bump(acc[1..], name);
    }
  }

  /**
   * The tally of a list of records: its names are distinct, it lists only
   * names that occur (every count is at least 1), the count of each name is
   * the number of records of that name, and the counts add up to the length
   * of the list.
   */
  lemma {:induction false} TallyNamesMeaning(records: seq<Record>)
    ensures DistinctNames(TallyNames(records))
    ensures forall i :: 0 <= i < |TallyNames(records)| ==> TallyNames(records)[i].1 >= 1
    ensures TallySum(TallyNames(records)) == |records|
    ensures forall name :: CountOf(TallyNames(records), name) == Occurrences(records, name)
  {
    if records != [] {
      var n := |records| - 1;
      TallyNamesMeaning(records[..n]);
      BumpCounts(TallyNames(records[..n]), records[n].name);
      BumpNames(TallyNames(records[..n]), records[n].name);
      BumpPositive(TallyNames(records[..n]), records[n].name);
    }
  }

  /** One block of the month report: the asset type, its label, the record count and the name tally. */
  datatype ReportItem = ReportItem(assetType: string, typeLabel: string, count: nat, tally: Tally)

  /**
   * The month report: nothing when no month is selected, otherwise one
   * block per entry of the asset-type table, in table order.
   */
  function MonthlyReport(projects: seq<Record>, month: string): (report: Option<seq<ReportItem>>)
    ensures report.None? <==> month == ""
    ensures report.Some? ==> |report.value| == |AssetTypeMap|
  {
    if month == "" then None
    else
      Some(seq(|AssetTypeMap|, i requires 0 <= i < |AssetTypeMap| =>
        var key := AssetTypeMap[i].0;
        var assetProjects := AssetProjects(projects, month, key);
        ReportItem(key, AssetTypeMap[i].1, |assetProjects|, TallyNames(assetProjects))))
  }

  /**
   * For a selected month, each block's header count equals the sum of its
   * per-name tallies, each name's tally is the number of records of that
   * name, asset type and month (so only names that occur are listed), and
   * every record counted in a block is of that block's asset type and
   * delivered in that month.
   */
  lemma {:induction false} MonthlyReportMeaning(projects: seq<Record>, month: string, i: nat)
    requires month != "" && i < |AssetTypeMap|
    ensures var item := MonthlyReport(projects, month).value[i];
      var key := AssetKeys[i];
      && item.assetType == key
      && item.count == TallySum(item.tally)
      && DistinctNames(item.tally)
      && (forall j :: 0 <= j < |item.tally| ==> item.tally[j].1 >= 1)
      && (forall name :: CountOf(item.tally, name) == Occurrences(AssetProjects(projects, month, key), name))
      && (forall r :: r in AssetProjects(projects, month, key) <==> r in projects && r.assetType == key && InMonth(r, month))
  {
    var key := AssetKeys[i];
    TallyNamesMeaning(AssetProjects(projects, month, key));
    forall r ensures r in AssetProjects(projects, month, key) <==> r in projects && r.assetType == key && InMonth(r, month) {
      FilterMembership(projects, r => InMonth(r, month), r);
      FilterMembership(Filter(projects, r => InMonth(r, month)), (r: Record) => r.assetType == key, r);
    }
  }

  // ---------------------------------------------------------------- the tally as written

  /**
   * A tally value as `(acc[name] || 0) + 1` produces it on a plain object:
   * a number, or the text that `+` makes of an inherited member and 1.
   */
  datatype TallyValue = Num(n: nat) | Garbled

  function Increment(v: TallyValue): TallyValue {
    match v
    case Num(n) => Num(n + 1)
    case Garbled => Garbled
  }

  /**
   * `{ ...acc, [name]: (acc[name] || 0) + 1 }` as written: a name that is
   * not yet an own entry but names an inherited member starts from that
   * member instead of from 0.
   */
  function BumpAsWritten(acc: seq<(string, TallyValue)>, name: string): seq<(string, TallyValue)> {
    if acc == [] then [(name, if name in InheritedNames then Garbled else Num(1))]
    else if acc[0].0 == name then [(name, Increment(acc[0].1))] + acc[1..]
    else [acc[0]] + BumpAsWritten(acc[1..], name)
  }

  function TallyNamesAsWritten(records: seq<Record>): seq<(string, TallyValue)> {
    if records == [] then []
    else BumpAsWritten(TallyNamesAsWritten(records[..|records| - 1]), records[|records| - 1].name)
  }

  /** The corrected tally with every count wrapped as a number. */
  function AsValues(t: Tally): (v: seq<(string, TallyValue)>)
    ensures |v| == |t|
  {
    seq(|t|, i requires 0 <= i < |t| => (t[i].0, Num(t[i].1)))
  }

  /**
   * A month with one delivery of a project called `toString`: the header
   * counts 1 delivery, but the tally as written holds no number for it,
   * while the corrected tally counts 1.
   */
  lemma {:induction false} InheritedNameGarbled(r: Record)
    requires r.name == "toString"
    ensures TallyNamesAsWritten([r]) == [("toString", Garbled)]
    ensures TallyNames([r]) == [("toString", 1)]
  {
    assert [r][..0] == [];
  }

  /** Without inherited names the tally as written is the corrected tally `TallyNames`. */
  lemma {:induction false} TallyAsWrittenAgrees(records: seq<Record>)
    requires forall r :: r in records ==> r.name !in InheritedNames
    ensures TallyNamesAsWritten(records) == AsValues(TallyNames(records))
  {
    if records != [] {
      var n := |records| - 1;
      assert forall r :: r in records[..n] ==> r in records;
      TallyAsWrittenAgrees(records[..n]);
      BumpAgrees(TallyNames(records[..n]), records[n].name);
    }
  }

  lemma {:induction false} BumpAgrees(acc: Tally, name: string)
    requires name !in InheritedNames
    ensures BumpAsWritten(AsValues(acc), name) == AsValues(Bump(acc, name))
  {
    if acc != [] {
      assert AsValues(acc)[1..] == AsValues(acc[1..]);
      if acc[0].0 != name {
        BumpAgrees(acc[1..], name);
      }
    }
  }

  // ---------------------------------------------------------------- issue class

  datatype IssueClass = IssueLow | IssueMedium | IssueHigh

  function GetIssueClass(count: int): IssueClass {
    if count == 0 then IssueLow
    else if count <= 2 then IssueMedium
    else IssueHigh
  }

  function Severity(c: IssueClass): nat {
    match c
    case IssueLow => 0
    case IssueMedium => 1
    case IssueHigh => 2
  }

  /** Among non-negative counts the class never drops as the count grows, and only 0 is low. */
  lemma {:induction false} IssueClassMonotone(a: int, b: int)
    requires 0 <= a <= b
    ensures Severity(GetIssueClass(a)) <= Severity(GetIssueClass(b))
    ensures GetIssueClass(a) == IssueLow <==> a == 0
  {
  }
}

=== FILE: calendar.dfy ===
/**
 * `formatExcelDate` (script.js:375-385) on integer day serials: a serial
 * counts days with 25569 standing for 1970-01-01, and the result is the
 * date part of `Date.prototype.toISOString`, i.e. the proleptic Gregorian
 * calendar date in UTC.
 *
 * `CivilFromDays` splits a day count into 400-year eras of 146097 days,
 * each counted from a 1 March, then into centuries, four-year groups and
 * years; `DaysFromCivil` is the independent closed-form count in the other
 * direction, and the two are proved inverse on valid dates.
 */
module Calendar {
  import opened Records
  import opened Text

  datatype Date = Date(year: int, month: int, day: int)

  predicate IsLeap(y: int) {
    y % 4 == 0 && (y % 100 != 0 || y % 400 == 0)
  }

  function DaysInMonth(y: int, m: int): int
    requires 1 <= m <= 12
  {
    if m == 2 then (if IsLeap(y) then 29 else 28)
    else if m == 4 || m == 6 || m == 9 || m == 11 then 30
    else 31
  }

  predicate ValidDate(d: Date) {
    1 <= d.month <= 12 && 1 <= d.day <= DaysInMonth(d.year, d.month)
  }

  /** Days from 1 March of year 0 of an era to 1 March of year `yoe` of that era. */
  function YearStart(yoe: int): int {
    365 * yoe + yoe / 4 - yoe / 100
  }

  /** Days from 1 March to the first day of the `mp`-th month after March. */
  function MonthStart(mp: int): int {
    (153 * mp + 2) / 5
  }

  /** Whether the March-based year `yoe` of an era ends with a 29 February. */
  predicate LongYear(yoe: int) {
    (yoe + 1) % 4 == 0 && ((yoe + 1) % 100 != 0 || yoe == 399)
  }

  /** A day of an era, as a March-based year of the era and a day of that year. */
  datatype YearDay = YearDay(yoe: int, doy: int)

  function SplitEra(doe: int): YearDay
    requires 0 <= doe < 146097
  {
    var n100 := if doe / 36524 < 4 then doe / 36524 else 3;
    var r100 := doe - 36524 * n100;
    var n4 := r100 / 1461;
    var r4 := r100 % 1461;
    var n1 := if r4 / 365 < 4 then r4 / 365 else 3;
    YearDay(100 * n100 + 4 * n4 + n1, r4 - 365 * n1)
  }

  lemma {:induction false} SplitEraBounds(doe: int)
    requires 0 <= doe < 146097
    ensures var s := SplitEra(doe);
      && 0 <= s.yoe < 400 && 0 <= s.doy <= 365
      && doe == YearStart(s.yoe) + s.doy
      && (s.doy == 365 ==> LongYear(s.yoe))
  {
    var n100 := if doe / 36524 < 4 then doe / 36524 else 3;
    var r100 := doe - 36524 * n100;
    CenturyOfDay(doe);
    var n4 := r100 / 1461;
    var r4 := r100 % 1461;
    QuadOfDay(r100);
    var n1 := if r4 / 365 < 4 then r4 / 365 else 3;
    YearOfQuad(r4);
    assert SplitEra(doe) == YearDay(100 * n100 + 4 * n4 + n1, r4 - 365 * n1);
    YearOfParts(n100, n4, n1);
  }

  lemma {:induction false} CenturyOfDay(doe: int)
    requires 0 <= doe < 146097
    ensures var n100 := if doe / 36524 < 4 then doe / 36524 else 3;
      var r100 := doe - 36524 * n100;
      0 <= n100 <= 3 && 0 <= r100 <= 36524 && (r100 == 36524 ==> n100 == 3)
  {
  }

  lemma {:induction false} QuadOfDay(r100: int)
    requires 0 <= r100 <= 36524
    ensures r100 == 1461 * (r100 / 1461) + r100 % 1461
    ensures 0 <= r100 / 1461 <= 24 && 0 <= r100 % 1461 < 1461
  {
  }

  lemma {:induction false} YearOfQuad(r4: int)
    requires 0 <= r4 < 1461
    ensures var n1 := if r4 / 365 < 4 then r4 / 365 else 3;
      0 <= n1 <= 3 && 0 <= r4 - 365 * n1 <= 365 && (r4 - 365 * n1 == 365 ==> n1 == 3)
  {
  }

  /** The year of the era made of `n100` centuries, `n4` four-year groups and `n1` years, and where it starts. */
  lemma {:induction false} YearOfParts(n100: int, n4: int, n1: int)
    requires 0 <= n100 <= 3 && 0 <= n4 <= 24 && 0 <= n1 <= 3
    ensures var yoe := 100 * n100 + 4 * n4 + n1;
      && 0 <= yoe < 400
      && yoe / 100 == n100 && yoe % 100 / 4 == n4 && yoe % 4 == n1
      && YearStart(yoe) == 36524 * n100 + 1461 * n4 + 365 * n1
      && (n1 == 3 ==> (LongYear(yoe) <==> n4 < 24 || n100 == 3))
  {
    var yoe := 100 * n100 + 4 * n4 + n1;
    assert yoe / 4 == 25 * n100 + n4;
    assert yoe / 100 == n100;
  }

  /** `SplitEra` recovers any year of the era and any day within that year. */
  lemma {:induction false} SplitEraInverse(yoe: int, doy: int)
    requires 0 <= yoe < 400 && 0 <= doy <= 365 && (doy == 365 ==> LongYear(yoe))
    ensures 0 <= YearStart(yoe) + doy < 146097
    ensures SplitEra(YearStart(yoe) + doy) == YearDay(yoe, doy)
  {
    var n100 := yoe / 100;
    var n4 := (yoe % 100) / 4;
    var n1 := yoe % 4;
    assert yoe == 100 * n100 + 4 * n4 + n1;
    YearOfParts(n100, n4, n1);
    SplitEraOfParts(YearStart(yoe) + doy, n100, n4, n1, doy);
  }

  /** `SplitEra` on a day given as centuries, four-year groups, years and a day of the year. */
  lemma {:induction false} SplitEraOfParts(doe: int, n100: int, n4: int, n1: int, doy: int)
    requires 0 <= n100 <= 3 && 0 <= n4 <= 24 && 0 <= n1 <= 3 && 0 <= doy <= 365
    requires doy == 365 ==> n1 == 3 && (n4 == 24 ==> n100 == 3)
    requires doe == 36524 * n100 + 1461 * n4 + 365 * n1 + doy
    ensures 0 <= doe < 146097
    ensures SplitEra(doe) == YearDay(100 * n100 + 4 * n4 + n1, doy)
  {
    var r4 := 365 * n1 + doy;
    CenturyOfDayInverse(doe, n100, 1461 * n4 + r4);
    QuadOfDayInverse(doe - 36524 * n100, n4, r4);
    YearOfQuadInverse(r4, n1, doy);
  }

  lemma {:induction false} CenturyOfDayInverse(doe: int, n100: int, r: int)
    requires 0 <= n100 <= 3 && 0 <= r <= 36524 && (r == 36524 ==> n100 == 3)
    requires doe == 36524 * n100 + r
    ensures 0 <= doe < 146097 && (if doe / 36524 < 4 then doe / 36524 else 3) == n100
  {
  }

  lemma {:induction false} QuadOfDayInverse(r100: int, n4: int, r: int)
    requires 0 <= r < 1461 && r100 == 1461 * n4 + r
    ensures r100 / 1461 == n4 && r100 % 1461 == r
  {
  }

  lemma {:induction false} YearOfQuadInverse(r4: int, n1: int, doy: int)
    requires 0 <= n1 <= 3 && 0 <= doy <= 365 && (doy == 365 ==> n1 == 3)
    requires r4 == 365 * n1 + doy
    ensures (if r4 / 365 < 4 then r4 / 365 else 3) == n1
  {
  }

  lemma {:induction false} MonthOfYear(doy: int)
    requires 0 <= doy <= 365
    ensures var mp := (5 * doy + 2) / 153;
      0 <= mp < 12 && MonthStart(mp) <= doy && (mp < 11 ==> doy < MonthStart(mp + 1))
  {
  }

  /** The civil date `z` days after 1970-01-01 (before it when `z` is negative). */
  function CivilFromDays(z: int): Date {
    var shifted := z + 719468;
    DateOfEraDay(shifted / 146097, SplitEra(shifted % 146097))
  }

  /** The civil date of day `s.doy` of the March-based year `s.yoe` of era `era`. */
  function DateOfEraDay(era: int, s: YearDay): Date {
    var mp := (5 * s.doy + 2) / 153;
    var month := if mp < 10 then mp + 3 else mp - 9;
    Date(s.yoe + era * 400 + (if month <= 2 then 1 else 0), month, s.doy - MonthStart(mp) + 1)
  }

  /** The number of days from 1970-01-01 to the date `d`. */
  function DaysFromCivil(d: Date): int
    requires 1 <= d.month <= 12
  {
    var y := if d.month <= 2 then d.year - 1 else d.year;
    var era := y / 400;
    var yoe := y % 400;
    var mp := if d.month > 2 then d.month - 3 else d.month + 9;
    era * 146097 + YearStart(yoe) + MonthStart(mp) + d.day - 1 - 719468
  }

  /** The length of each month, read off `MonthStart`. */
  lemma {:induction false} MonthLengths(y: int, mp: int)
    requires 0 <= mp < 11
    ensures var m := if mp < 10 then mp + 3 else mp - 9;
      MonthStart(mp + 1) - MonthStart(mp) == DaysInMonth(y, m)
  {
  }

  /** A March-based year of an era is long exactly when the following calendar year is a leap year. */
  lemma {:induction false} LongYearIsLeap(era: int, yoe: int)
    requires 0 <= yoe < 400
    ensures LongYear(yoe) <==> IsLeap(yoe + 1 + era * 400)
  {
    ShiftByEras(yoe + 1, era);
  }

  lemma {:induction false} ShiftByEras(a: int, era: int)
    ensures (a + era * 400) % 4 == a % 4
    ensures (a + era * 400) % 100 == a % 100
    ensures (a + era * 400) % 400 == a % 400
  {
    ShiftByErasMod4(a, era);
    ShiftByErasMod100(a, era);
    ShiftByErasMod400(a, era);
  }

  lemma {:induction false} ShiftByErasMod4(a: int, era: int)
    ensures (a + era * 400) % 4 == a % 4
  {
    var k := a + era * 400;
    assert k == 4 * (k / 4) + k % 4;
    assert a == 4 * (a / 4) + a % 4;
    assert k - a == 4 * (100 * era);
  }

  lemma {:induction false} ShiftByErasMod100(a: int, era: int)
    ensures (a + era * 400) % 100 == a % 100
  {
    var k := a + era * 400;
    assert k == 100 * (k / 100) + k % 100;
    assert a == 100 * (a / 100) + a % 100;
    assert k - a == 100 * (4 * era);
  }

  lemma {:induction false} ShiftByErasMod400(a: int, era: int)
    ensures (a + era * 400) % 400 == a % 400
  {
    var k := a + era * 400;
    assert k == 400 * (k / 400) + k % 400;
    assert a == 400 * (a / 400) + a % 400;
  }

  /** Every day count names a valid date. */
  lemma {:induction false} CivilFromDaysValid(z: int)
    ensures ValidDate(CivilFromDays(z))
  {
    var shifted := z + 719468;
    var doe := shifted % 146097;
    SplitEraBounds(doe);
    DateOfEraDayValid(shifted / 146097, SplitEra(doe));
  }

  lemma {:induction false} DateOfEraDayValid(era: int, s: YearDay)
    requires 0 <= s.yoe < 400 && 0 <= s.doy <= 365 && (s.doy == 365 ==> LongYear(s.yoe))
    ensures ValidDate(DateOfEraDay(era, s))
  {
    MonthOfYear(s.doy);
    var mp := (5 * s.doy + 2) / 153;
    var month := if mp < 10 then mp + 3 else mp - 9;
    var year := s.yoe + era * 400 + (if month <= 2 then 1 else 0);
    var day := s.doy - MonthStart(mp) + 1;
    assert DateOfEraDay(era, s) == Date(year, month, day);
    if mp < 11 {
      MonthLengths(year, mp);
    } else {
      LongYearIsLeap(era, s.yoe);
      assert month == 2 && day <= 29;
      assert day == 29 ==> IsLeap(year);
    }
  }

  /** Counting the days up to the date of `z` gives `z` back. */
  lemma {:induction false} DaysFromCivilOfCivil(z: int)
    ensures ValidDate(CivilFromDays(z))
    ensures DaysFromCivil(CivilFromDays(z)) == z
  {
    CivilFromDaysValid(z);
    var shifted := z + 719468;
    var doe := shifted % 146097;
    SplitEraBounds(doe);
    DaysOfEraDay(shifted / 146097, SplitEra(doe));
  }

  lemma {:induction false} DaysOfEraDay(era: int, s: YearDay)
    requires 0 <= s.yoe < 400 && 0 <= s.doy <= 365
    ensures DaysFromCivil(DateOfEraDay(era, s)) == era * 146097 + YearStart(s.yoe) + s.doy - 719468
  {
    MonthOfYear(s.doy);
    var y := s.yoe + era * 400;
    assert y / 400 == era && y % 400 == s.yoe;
  }

  /** The month of a day of a March-based year is recovered from the day alone. */
  lemma {:induction false} MonthOfYearInverse(mp: int, day: int)
    requires 0 <= mp < 12 && 1 <= day && (mp < 11 ==> day <= MonthStart(mp + 1) - MonthStart(mp)) && (mp == 11 ==> day <= 29)
    ensures (5 * (MonthStart(mp) + day - 1) + 2) / 153 == mp
  {
  }

  /** The date of the day count of a valid date is that date. */
  lemma {:induction false} CivilOfDaysFromCivil(d: Date)
    requires ValidDate(d)
    ensures CivilFromDays(DaysFromCivil(d)) == d
  {
    var y := if d.month <= 2 then d.year - 1 else d.year;
    var era := y / 400;
    var yoe := y % 400;
    var mp := if d.month > 2 then d.month - 3 else d.month + 9;
    var doy := MonthStart(mp) + d.day - 1;
    DayOfYearInRange(d);
    CivilFromDaysOfSplit(DaysFromCivil(d), era, yoe, doy);
    MonthOfYearInverse(mp, d.day);
    assert yoe + era * 400 + (if d.month <= 2 then 1 else 0) == d.year;
    DateOfEraDayOfParts(d, era, yoe, mp, doy);
  }

  lemma {:induction false} DateOfEraDayOfParts(d: Date, era: int, yoe: int, mp: int, doy: int)
    requires (5 * doy + 2) / 153 == mp && doy == MonthStart(mp) + d.day - 1
    requires d.month == (if mp < 10 then mp + 3 else mp - 9)
    requires yoe + era * 400 + (if d.month <= 2 then 1 else 0) == d.year
    ensures DateOfEraDay(era, YearDay(yoe, doy)) == d
  {
  }

  /** `CivilFromDays` on a day count given as an era, a year of the era and a day of that year. */
  lemma {:induction false} CivilFromDaysOfSplit(z: int, era: int, yoe: int, doy: int)
    requires 0 <= yoe < 400 && 0 <= doy <= 365 && (doy == 365 ==> LongYear(yoe))
    requires z + 719468 == era * 146097 + YearStart(yoe) + doy
    ensures CivilFromDays(z) == DateOfEraDay(era, YearDay(yoe, doy))
  {
    var shifted := z + 719468;
    var r := YearStart(yoe) + doy;
    SplitEraInverse(yoe, doy);
    EraDivMod(era, r);
    assert shifted / 146097 == era && shifted % 146097 == r;
  }

  lemma {:induction false} EraDivMod(era: int, r: int)
    requires 0 <= r < 146097
    ensures (era * 146097 + r) / 146097 == era
    ensures (era * 146097 + r) % 146097 == r
  {
  }

  /** The calendar day after `d`. */
  function NextDay(d: Date): Date
    requires ValidDate(d)
  {
    if d.day < DaysInMonth(d.year, d.month) then Date(d.year, d.month, d.day + 1)
    else if d.month < 12 then Date(d.year, d.month + 1, 1)
    else Date(d.year + 1, 1, 1)
  }

  /**
   * `DaysFromCivil` counts days: the day after a valid date is valid and
   * counts exactly one more.
   */
  lemma {:induction false} DaysFromCivilNext(d: Date)
    requires ValidDate(d)
    ensures ValidDate(NextDay(d))
    ensures DaysFromCivil(NextDay(d)) == DaysFromCivil(d) + 1
  {
    if d.day < DaysInMonth(d.year, d.month) {
      assert NextDay(d) == Date(d.year, d.month, d.day + 1);
      NextDaySameMonth(d);
    } else if d.month == 2 {
      assert NextDay(d) == Date(d.year, 3, 1);
      NextDayMarch(d.year, d.day);
    } else if d.month < 12 {
      assert NextDay(d) == Date(d.year, d.month + 1, 1);
      NextDayMonth(d.year, d.month);
    } else {
      assert NextDay(d) == Date(d.year + 1, 1, 1);
      NextDayYear(d.year);
    }
  }

  lemma {:induction false} NextDaySameMonth(d: Date)
    requires ValidDate(d) && d.day < DaysInMonth(d.year, d.month)
    ensures DaysFromCivil(Date(d.year, d.month, d.day + 1)) == DaysFromCivil(d) + 1
  {
  }

  /** From 31 December to 1 January. */
  lemma {:induction false} NextDayYear(year: int)
    ensures DaysFromCivil(Date(year + 1, 1, 1)) == DaysFromCivil(Date(year, 12, 31)) + 1
  {
    MonthLengths(year, 9);
  }

  /** From the last day of a month other than February and December to the first of the next. */
  lemma {:induction false} NextDayMonth(year: int, month: int)
    requires 1 <= month < 12 && month != 2
    ensures DaysFromCivil(Date(year, month + 1, 1))
         == DaysFromCivil(Date(year, month, DaysInMonth(year, month))) + 1
  {
    var mp := if month > 2 then month - 3 else month + 9;
    MonthLengths(year, mp);
  }

  /** From the last day of February to 1 March. */
  lemma {:induction false} NextDayMarch(year: int, day: int)
    requires day == DaysInMonth(year, 2)
    ensures DaysFromCivil(Date(year, 3, 1)) == DaysFromCivil(Date(year, 2, day)) + 1
  {
    var y := year - 1;
    YearStep(y);
    LongYearIsLeap(y / 400, y % 400);
    assert y % 400 + 1 + y / 400 * 400 == year;
    assert DaysFromCivil(Date(year, 2, day)) == y / 400 * 146097 + YearStart(y % 400) + 337 + day - 1 - 719468;
  }

  /** The 1 March after that of year `y` lies 365 days later, one more when the March-based year is long. */
  lemma {:induction false} YearStep(y: int)
    ensures (y + 1) / 400 * 146097 + YearStart((y + 1) % 400)
         == y / 400 * 146097 + YearStart(y % 400) + 365 + (if LongYear(y % 400) then 1 else 0)
  {
    var era := y / 400;
    var yoe := y % 400;
    if yoe < 399 {
      EraDivMod400(era, yoe + 1);
      assert (y + 1) / 400 == era && (y + 1) % 400 == yoe + 1;
      YearStartStep(yoe);
    } else {
      EraDivMod400(era + 1, 0);
      assert (y + 1) / 400 == era + 1 && (y + 1) % 400 == 0;
    }
  }

  lemma {:induction false} EraDivMod400(era: int, r: int)
    requires 0 <= r < 400
    ensures (era * 400 + r) / 400 == era
    ensures (era * 400 + r) % 400 == r
  {
  }

  lemma {:induction false} YearStartStep(yoe: int)
    requires 0 <= yoe < 399
    ensures YearStart(yoe + 1) == YearStart(yoe) + 365 + (if LongYear(yoe) then 1 else 0)
  {
    var q4 := yoe / 4;
    var q100 := yoe / 100;
    assert yoe == 4 * q4 + yoe % 4;
    assert yoe == 100 * q100 + yoe % 100;
    if (yoe + 1) % 4 == 0 {
      assert (yoe + 1) / 4 == q4 + 1;
    } else {
      assert (yoe + 1) / 4 == q4;
    }
    if (yoe + 1) % 100 == 0 {
      assert (yoe + 1) / 100 == q100 + 1;
    } else {
      assert (yoe + 1) / 100 == q100;
    }
  }

  /** The day of the March-based year a valid date falls on, and the month bounds it obeys. */
  lemma {:induction false} DayOfYearInRange(d: Date)
    requires ValidDate(d)
    ensures var y := if d.month <= 2 then d.year - 1 else d.year;
      var yoe := y % 400;
      var mp := if d.month > 2 then d.month - 3 else d.month + 9;
      var doy := MonthStart(mp) + d.day - 1;
      && 0 <= mp < 12
      && d.month == (if mp < 10 then mp + 3 else mp - 9)
      && (mp < 11 ==> d.day <= MonthStart(mp + 1) - MonthStart(mp))
      && (mp == 11 ==> d.day <= 29)
      && 0 <= doy <= 365 && (doy == 365 ==> LongYear(yoe))
  {
    var y := if d.month <= 2 then d.year - 1 else d.year;
    var era := y / 400;
    var yoe := y % 400;
    var mp := if d.month > 2 then d.month - 3 else d.month + 9;
    var doy := MonthStart(mp) + d.day - 1;
    if mp < 11 {
      MonthLengths(d.year, mp);
      assert doy < MonthStart(mp + 1) <= 365;
    } else {
      assert d.year == yoe + 1 + era * 400;
      LongYearIsLeap(era, yoe);
      assert doy == 336 + d.day;
    }
  }

  // ---------------------------------------------------------------- rendering

  /** The last `width` decimal digits of `n`, with leading zeros. */
  function PadDigits(n: nat, width: nat): (s: string)
    ensures |s| == width && AllDigits(s)
  {
    if width == 0 then "" else PadDigits(n / 10, width - 1) + [DigitChar(n % 10)]
  }

  /**
   * The year as `toISOString` writes it: four digits for years 0 to 9999,
   * otherwise a sign and six digits.
   */
  function IsoYear(y: int): string {
    if 0 <= y <= 9999 then PadDigits(y, 4)
    else if y < 0 then "-" + PadDigits(-y, 6)
    else "+" + PadDigits(y, 6)
  }

  /** `date.toISOString().split('T')[0]` for a date at midnight UTC. */
  function IsoDate(d: Date): string
    requires ValidDate(d)
  {
    IsoYear(d.year) + "-" + PadDigits(d.month, 2) + "-" + PadDigits(d.day, 2)
  }

  /** `/^\d{4}-\d{2}-\d{2}$/.test(s)` */
  predicate IsDateShape(s: string) {
    && |s| == 10
    && IsDigit(s[0]) && IsDigit(s[1]) && IsDigit(s[2]) && IsDigit(s[3])
    && s[4] == '-' && IsDigit(s[5]) && IsDigit(s[6])
    && s[7] == '-' && IsDigit(s[8]) && IsDigit(s[9])
  }

  /** A date in the years 0 to 9999 is written in the shape the import accepts verbatim. */
  lemma {:induction false} IsoDateShape(d: Date)
    requires ValidDate(d) && 0 <= d.year <= 9999
    ensures IsDateShape(IsoDate(d))
  {
    var s := IsoDate(d);
    assert s == PadDigits(d.year, 4) + "-" + PadDigits(d.month, 2) + "-" + PadDigits(d.day, 2);
  }

  // ---------------------------------------------------------------- formatExcelDate

  /** A spreadsheet cell as the sheet reader hands it over. */
  datatype Cell = NumberCell(n: int) | StringCell(s: string)

  /** The serial of 1970-01-01. */
  const UnixEpochSerial := 25569

  /** `new Date(ms)` is valid only within 100000000 days of 1970-01-01. */
  const MaxDays := 100000000

  /**
   * `formatExcelDate(cell)`, the absent cell being `undefined`. `None`
   * stands for the `RangeError` that `toISOString` throws on a serial
   * outside the range of `Date`.
   */
  function FormatExcelDate(cell: Option<Cell>): (r: Option<string>)
    ensures r.None? <==> cell.Some? && cell.value.NumberCell?
                         && !(-MaxDays <= cell.value.n - UnixEpochSerial <= MaxDays)
  {
    match cell
    case None => Some("")
    case Some(StringCell(s)) => if s != "" && IsDateShape(s) then Some(s) else Some("")
    case Some(NumberCell(n)) =>
      if n == 0 then Some("")
      else if -MaxDays <= n - UnixEpochSerial <= MaxDays then
        CivilFromDaysValid(n - UnixEpochSerial);
        Some(IsoDate(CivilFromDays(n - UnixEpochSerial)))
      else None
  }

  /**
   * A non-zero serial in range is rendered as the date it denotes: the one
   * valid date whose day count from 1970-01-01 is `n - 25569`.
   */
  lemma {:induction false} FormatSerialMeaning(n: int, d: Date)
    requires n != 0 && -MaxDays <= n - UnixEpochSerial <= MaxDays
    requires ValidDate(d) && DaysFromCivil(d) == n - UnixEpochSerial
    ensures FormatExcelDate(Some(NumberCell(n))) == Some(IsoDate(d))
  {
    CivilOfDaysFromCivil(d);
  }

  /** Every non-zero serial in range names some valid date, so the lemma above always applies. */
  lemma {:induction false} FormatSerialHasDate(n: int)
    requires n != 0 && -MaxDays <= n - UnixEpochSerial <= MaxDays
    ensures exists d :: ValidDate(d) && DaysFromCivil(d) == n - UnixEpochSerial
                        && FormatExcelDate(Some(NumberCell(n))) == Some(IsoDate(d))
  {
    var d := CivilFromDays(n - UnixEpochSerial);
    DaysFromCivilOfCivil(n - UnixEpochSerial);
    assert FormatExcelDate(Some(NumberCell(n))) == Some(IsoDate(d));
  }

  /**
   * The strings: `undefined`, `0` and `''` give `''`; a `YYYY-MM-DD` string
   * comes back unchanged; any other string gives `''`.
   */
  lemma {:induction false} FormatStrings(s: string)
    ensures FormatExcelDate(None) == Some("")
    ensures FormatExcelDate(Some(NumberCell(0))) == Some("")
    ensures IsDateShape(s) ==> FormatExcelDate(Some(StringCell(s))) == Some(s)
    ensures !IsDateShape(s) ==> FormatExcelDate(Some(StringCell(s))) == Some("")
  {
  }

  /**
   * Reading back a rendered date changes nothing: for a serial whose date
   * lies in the years 0 to 9999, formatting the rendered string again
   * yields the same string.
   */
  lemma {:induction false} FormatIdempotent(n: int)
    requires n != 0 && -MaxDays <= n - UnixEpochSerial <= MaxDays
    requires 0 <= CivilFromDays(n - UnixEpochSerial).year <= 9999
    ensures FormatExcelDate(Some(NumberCell(n))).Some?
    ensures var s := FormatExcelDate(Some(NumberCell(n))).value;
      IsDateShape(s) && FormatExcelDate(Some(StringCell(s))) == Some(s)
  {
    CivilFromDaysValid(n - UnixEpochSerial);
    IsoDateShape(CivilFromDays(n - UnixEpochSerial));
  }

  /** Serial 25569 is 1970-01-01. */
  lemma {:induction false} FormatEpoch()
    ensures FormatExcelDate(Some(NumberCell(25569))) == Some("1970-01-01")
  {
    var d := Date(1970, 1, 1);
    assert YearStart(369) == 134774 && MonthStart(10) == 306;
    assert DaysFromCivil(d) == 0;
    FormatSerialMeaning(25569, d);
    RenderEpoch();
  }

  lemma {:induction false} RenderEpoch()
    ensures IsoDate(Date(1970, 1, 1)) == "1970-01-01"
  {
    Digits4(1970);
    Digits2(1);
    assert DigitChar(0) == '0' && DigitChar(1) == '1' && DigitChar(7) == '7' && DigitChar(9) == '9';
    assert IsoYear(1970) == "1970" && PadDigits(1, 2) == "01";
    assert IsoDate(Date(1970, 1, 1)) == "1970" + "-" + "01" + "-" + "01";
  }

  /** Serial 45000 is 2023-03-15. */
  lemma {:induction false} FormatSerial45000()
    ensures FormatExcelDate(Some(NumberCell(45000))) == Some("2023-03-15")
  {
    var d := Date(2023, 3, 15);
    assert DaysFromCivil(d) == 5 * 146097 + YearStart(23) + 14 - 719468;
    FormatSerialMeaning(45000, d);
    Render20230315();
  }

  lemma {:induction false} Render20230315()
    ensures IsoDate(Date(2023, 3, 15)) == "2023-03-15"
  {
    Year2023();
    Digits2(3);
    Digits2(15);
    assert DigitChar(0) == '0' && DigitChar(1) == '1' && DigitChar(3) == '3' && DigitChar(5) == '5';
    assert PadDigits(3, 2) == "03" && PadDigits(15, 2) == "15";
    assert IsoDate(Date(2023, 3, 15)) == "2023" + "-" + "03" + "-" + "15";
  }

  lemma {:induction false} Year2023()
    ensures IsoYear(2023) == "2023"
  {
    Digits4(2023);
    assert DigitChar(0) == '0' && DigitChar(2) == '2' && DigitChar(3) == '3';
  }

  lemma {:induction false} Digits2(n: nat)
    requires n < 100
    ensures PadDigits(n, 2) == [DigitChar(n / 10), DigitChar(n % 10)]
  {
    assert PadDigits(n / 10, 1) == [DigitChar(n / 10)] by {
      assert n / 10 % 10 == n / 10;
      assert PadDigits(n / 10, 1) == PadDigits(n / 100, 0) + [DigitChar(n / 10 % 10)];
    }
  }

  lemma {:induction false} Digits4(n: nat)
    requires n < 10000
    ensures PadDigits(n, 4) == [DigitChar(n / 100 / 10), DigitChar(n / 100 % 10), DigitChar(n / 10 % 10), DigitChar(n % 10)]
  {
    Digits2(n / 100);
    assert n / 10 / 10 == n / 100;
    assert PadDigits(n / 10, 3) == PadDigits(n / 100, 2) + [DigitChar(n / 10 % 10)];
  }
}

=== FILE: dashboard.dfy ===
/**
 * The dashboard's state and the routines that change it (script.js:1-6,
 * 15-110, 188-264, 266-372, 387-392). `projects` is the collection;
 * `filteredProjects` holds the very objects of `projects` that the table
 * shows, so it is kept here as their positions `shown`; `monthFilter` is
 * the value of the month input; `storage` is the saved copy.
 */
module App {
  import opened Records
  import opened Seqs
  import opened Ordering
  import opened Filters
  import opened Transfer

  /** The sample collection `initApp` falls back to (script.js:17-22), in the order written. */
  const SampleProjects: seq<Record> := [
    Record("电商移动端APP", "app", "re-test", "2024-03-10", 2, 1, "已完成一轮复测"),
    Record("客服小程序", "miniprogram", "initial-test", "2024-04-15", 0, 3, "安全问题待修复"),
    Record("营销H5", "h5", "re-test", "2024-02-25", 1, 0, ""),
    Record("企业公众号", "wechat", "initial-test", "2024-05-20", 0, 0, "待开始初测")
  ]

  /** The collection after a save: the edited position replaced, or the record appended. */
  function Updated(projects: seq<Record>, editingIndex: int, rec: Record): (r: seq<Record>)
    requires editingIndex < |projects|
    ensures editingIndex >= 0 ==>
      && |r| == |projects| && r[editingIndex] == rec
      && forall k :: 0 <= k < |projects| && k != editingIndex ==> r[k] == projects[k]
    ensures editingIndex < 0 ==> r == projects + [rec]
  {
    if editingIndex >= 0 then projects[editingIndex := rec] else projects + [rec]
  }

  class Dashboard {
    var projects: seq<Record>
    var shown: seq<nat>
    var editingIndex: int
    var activeCardFilter: Category
    var monthFilter: string
    var storage: Option<Blob>

    /** The view is current: every routine that changes the data ends by re-filtering. */
    predicate Valid()
      reads this
    {
      && (monthFilter != "" ==> activeCardFilter == Total)
      && shown == ShownPositions(projects, monthFilter, activeCardFilter)
    }

    /** `filteredProjects`: the records at the shown positions, which is what `applyFilters` computes. */
    function FilteredProjects(): (r: seq<Record>)
      reads this
      requires Valid()
      ensures r == Filters.ApplyFilters(projects, monthFilter, activeCardFilter).records
      ensures |r| == |shown| && forall k :: 0 <= k < |shown| ==> shown[k] < |projects| && r[k] == projects[shown[k]]
    {
      ApplyFiltersMeaning(projects, monthFilter, activeCardFilter);
      Pick(projects, shown)
    }

    /** The state before `initApp`: no data, no filter, `total` selected, whatever the storage holds. */
    constructor(saved: Option<Blob>)
      ensures projects == [] && shown == [] && editingIndex == -1
      ensures activeCardFilter == Total && monthFilter == "" && storage == saved
      ensures Valid()
    {
      projects := [];
      shown := [];
      editingIndex := -1;
      activeCardFilter := Total;
      monthFilter := "";
      storage := saved;
    }

    /** `saveToLocalStorage` */
    method SaveToStorage()
      modifies this
      ensures storage == Some(Saved(PersistAll(projects)))
      ensures projects == old(projects) && shown == old(shown) && editingIndex == old(editingIndex)
      ensures activeCardFilter == old(activeCardFilter) && monthFilter == old(monthFilter)
    {
      storage := Some(Saved(PersistAll(projects)));
    }

    /** `sortProjects`: the canonical order, as a permutation of the collection. */
    method SortProjects()
      modifies this
      ensures Ordered(projects) && multiset(projects) == multiset(old(projects)) && |projects| == |old(projects)|
      ensures SameTies(projects, old(projects))
      ensures storage == old(storage) && shown == old(shown) && editingIndex == old(editingIndex)
      ensures activeCardFilter == old(activeCardFilter) && monthFilter == old(monthFilter)
    {
      projects := SortRecords(projects);
    }

    /**
     * `loadFromLocalStorage`: a saved array replaces the collection, with
     * missing counts read as 0, and is sorted; anything else changes nothing.
     */
    method LoadFromStorage() returns (loaded: bool)
      modifies this
      ensures loaded <==> storage.Some? && storage.value.Saved?
      ensures loaded ==> Ordered(projects) && multiset(projects) == multiset(BackfillAll(storage.value.items))
                         && |projects| == |storage.value.items| && SameTies(projects, BackfillAll(storage.value.items))
      ensures !loaded ==> projects == old(projects)
      ensures storage == old(storage) && shown == old(shown) && editingIndex == old(editingIndex)
      ensures activeCardFilter == old(activeCardFilter) && monthFilter == old(monthFilter)
    {
      match storage
      case Some(Saved(items)) =>
        projects := BackfillAll(items);
        SortProjects();
        loaded := true;
      case _ =>
        loaded := false;
    }

    /**
     * `applyFilters`: a selected month forces the card filter back to
     * `total`, and the view becomes the records that pass both stages.
     */
    method ApplyFilters()
      modifies this
      ensures Valid()
      ensures activeCardFilter == EffectiveCategory(monthFilter, old(activeCardFilter))
      ensures FilteredProjects() == Filters.ApplyFilters(projects, monthFilter, old(activeCardFilter)).records
      ensures projects == old(projects) && storage == old(storage) && editingIndex == old(editingIndex)
      ensures monthFilter == old(monthFilter)
    {
      activeCardFilter := EffectiveCategory(monthFilter, activeCardFilter);
      shown := ShownPositions(projects, monthFilter, activeCardFilter);
    }

    /**
     * `initApp`: the saved collection when there is a non-empty one,
     * otherwise the sample collection, which is then saved; the month
     * filter starts at the current month.
     */
    method InitApp(currentMonth: string)
      modifies this
      ensures Valid() && monthFilter == currentMonth
      ensures var s := old(storage);
        if s.Some? && s.value.Saved? && s.value.items != [] then
          && Ordered(projects) && multiset(projects) == multiset(BackfillAll(s.value.items))
          && SameTies(projects, BackfillAll(s.value.items))
          && storage == s
        else
          projects == SampleProjects && storage == Some(Saved(PersistAll(SampleProjects)))
      ensures editingIndex == old(editingIndex)
      ensures activeCardFilter == EffectiveCategory(currentMonth, old(activeCardFilter))
    {
      var loaded := LoadFromStorage();
      if !loaded || |projects| == 0 {
        projects := SampleProjects;
        SaveToStorage();
      }
      monthFilter := currentMonth;
      ApplyFilters();
    }

    /** `setActiveCardFilter(c)`: select a card, then re-filter. */
    method SetActiveCardFilter(c: Category)
      modifies this
      ensures Valid() && activeCardFilter == EffectiveCategory(monthFilter, c)
      ensures FilteredProjects() == Filters.ApplyFilters(projects, monthFilter, c).records
      ensures projects == old(projects) && storage == old(storage) && editingIndex == old(editingIndex)
      ensures monthFilter == old(monthFilter)
    {
      activeCardFilter := c;
      ApplyFilters();
    }

    /**
     * A click on a summary card: the month filter is cleared and the card's
     * filter selected, so the view is every record passing that card's filter.
     */
    method ClickCard(c: Category)
      modifies this
      ensures Valid() && monthFilter == "" && activeCardFilter == c
      ensures FilteredProjects() == Filter(projects, r => InCategory(r, c))
      ensures c == Total ==> FilteredProjects() == projects
      ensures projects == old(projects) && storage == old(storage) && editingIndex == old(editingIndex)
    {
      monthFilter := "";
      SetActiveCardFilter(c);
      CardFilterOnly(projects, c);
    }

    /** `filterByMonth`: a new value of the month input, then re-filter. */
    method FilterByMonth(month: string)
      modifies this
      ensures Valid() && monthFilter == month
      ensures month != "" ==> activeCardFilter == Total && FilteredProjects() == Filter(projects, r => InMonth(r, month))
      ensures month == "" ==> activeCardFilter == old(activeCardFilter)
      ensures projects == old(projects) && storage == old(storage) && editingIndex == old(editingIndex)
    {
      monthFilter := month;
      ApplyFilters();
      ApplyFiltersMeaning(projects, monthFilter, old(activeCardFilter));
    }

    /** `clearFilter`: no month and the `total` card, so the whole collection is shown. */
    method ClearFilter()
      modifies this
      ensures Valid() && monthFilter == "" && activeCardFilter == Total
      ensures FilteredProjects() == projects
      ensures projects == old(projects) && storage == old(storage) && editingIndex == old(editingIndex)
    {
      monthFilter := "";
      SetActiveCardFilter(Total);
    }

    /** `showAddModal`: nothing is being edited and the form is blank. */
    method ShowAddModal() returns (form: Form)
      modifies this
      ensures editingIndex == -1 && form == BlankForm
      ensures projects == old(projects) && shown == old(shown) && storage == old(storage)
      ensures activeCardFilter == old(activeCardFilter) && monthFilter == old(monthFilter)
    {
      editingIndex := -1;
      form := BlankForm;
    }

    /**
     * `showEditModal(index)`: the record shown in row `index` is located in
     * the collection and its fields fill the form. For a row that does not
     * exist the lookup yields -1 and reading the record throws, so no form
     * is shown.
     */
    method ShowEditModal(index: int) returns (form: Option<Form>)
      requires Valid()
      modifies this
      ensures Valid()
      ensures 0 <= index < |old(shown)| ==>
        && editingIndex == old(shown)[index] && 0 <= editingIndex < |projects|
        && projects[editingIndex] == old(FilteredProjects())[index]
        && form == Some(FormOf(projects[editingIndex]))
      ensures !(0 <= index < |old(shown)|) ==> editingIndex == -1 && form == None
      ensures projects == old(projects) && shown == old(shown) && storage == old(storage)
      ensures activeCardFilter == old(activeCardFilter) && monthFilter == old(monthFilter)
    {
      if 0 <= index < |shown| {
        editingIndex := shown[index];
        form := Some(FormOf(projects[editingIndex]));
      } else {
        editingIndex := -1;
        form := None;
      }
    }

    /**
     * `saveProject`: a form whose trimmed name is empty is rejected and
     * nothing changes; otherwise the record replaces the one being edited
     * (or is appended when nothing is), the collection is re-sorted, saved
     * and re-filtered.
     */
    method SaveProject(f: Form)
      requires Valid() && editingIndex < |projects|
      modifies this
      ensures Valid()
      ensures RecordOfForm(f).name == "" ==>
        && projects == old(projects) && shown == old(shown) && storage == old(storage)
        && activeCardFilter == old(activeCardFilter)
      ensures RecordOfForm(f).name != "" ==>
        && Ordered(projects)
        && multiset(projects) == multiset(Updated(old(projects), old(editingIndex), RecordOfForm(f)))
        && SameTies(projects, Updated(old(projects), old(editingIndex), RecordOfForm(f)))
        && |projects| == |old(projects)| + (if old(editingIndex) < 0 then 1 else 0)
        && storage == Some(Saved(PersistAll(projects)))
        && activeCardFilter == EffectiveCategory(monthFilter, old(activeCardFilter))
      ensures editingIndex == old(editingIndex) && monthFilter == old(monthFilter)
    {
      var rec := RecordOfForm(f);
      if rec.name == "" {
        return;
      }
      projects := Updated(projects, editingIndex, rec);
      SortProjects();
      SaveToStorage();
      ApplyFilters();
    }

    /**
     * `deleteProject(index)` once confirmed: the record shown in row
     * `index` leaves the collection, every other record stays in order, and
     * the result is saved and re-filtered. A row that does not exist
     * deletes nothing.
     */
    method DeleteProject(index: int, confirmed: bool)
      requires Valid()
      modifies this
      ensures Valid()
      ensures confirmed && 0 <= index < |old(shown)| ==>
        var k := old(shown)[index];
        && k < |old(projects)| && old(projects)[k] == old(FilteredProjects())[index]
        && projects == old(projects)[..k] + old(projects)[k + 1..]
      ensures !(confirmed && 0 <= index < |old(shown)|) ==> projects == old(projects)
      ensures confirmed ==> storage == Some(Saved(PersistAll(projects)))
      ensures !confirmed ==> storage == old(storage) && shown == old(shown)
      ensures editingIndex == old(editingIndex) && monthFilter == old(monthFilter)
      ensures activeCardFilter == old(activeCardFilter)
    {
      if !confirmed {
        return;
      }
      if 0 <= index < |shown| {
        var k := shown[index];
        projects := projects[..k] + projects[k + 1..];
      }
      SaveToStorage();
      ApplyFilters();
    }

    /** `clearAllData` once confirmed: the collection is emptied, saved and re-filtered. */
    method ClearAllData(confirmed: bool)
      requires Valid()
      modifies this
      ensures Valid()
      ensures confirmed ==> projects == [] && shown == [] && storage == Some(Saved([]))
      ensures !confirmed ==> projects == old(projects) && storage == old(storage) && shown == old(shown)
      ensures editingIndex == old(editingIndex) && monthFilter == old(monthFilter)
      ensures activeCardFilter == old(activeCardFilter)
    {
      if confirmed {
        projects := [];
        SaveToStorage();
        ApplyFilters();
      }
    }

    /**
     * `importData` once confirmed: an array replaces the collection, sorted,
     * saved and shown unfiltered; any other payload changes nothing.
     */
    method ImportData(payload: Payload, confirmed: bool)
      requires Valid()
      modifies this
      ensures Valid()
      ensures payload.ArrayPayload? && confirmed ==>
        && Ordered(projects) && multiset(projects) == multiset(payload.items)
        && SameTies(projects, payload.items)
        && storage == Some(Saved(PersistAll(projects)))
        && monthFilter == "" && activeCardFilter == Total && FilteredProjects() == projects
      ensures !(payload.ArrayPayload? && confirmed) ==>
        && projects == old(projects) && storage == old(storage) && shown == old(shown)
        && monthFilter == old(monthFilter) && activeCardFilter == old(activeCardFilter)
      ensures editingIndex == old(editingIndex)
    {
      if payload.ArrayPayload? && confirmed {
        projects := payload.items;
        SortProjects();
        SaveToStorage();
        ClearFilter();
      }
    }

    /**
     * `importExcel`: a sheet without rows is refused; once confirmed, the
     * rows' records replace the collection, sorted, saved and shown
     * unfiltered, unless a date cell cannot be rendered, which aborts the
     * import with nothing changed.
     */
    method ImportExcel(rows: seq<Row>, confirmed: bool)
      requires Valid()
      modifies this
      ensures Valid()
      ensures rows != [] && confirmed && ImportRows(rows).Some? ==>
        && Ordered(projects) && multiset(projects) == multiset(ImportRows(rows).value)
        && SameTies(projects, ImportRows(rows).value)
        && |projects| == |rows|
        && (forall r :: r in projects ==> r.assetType in AssetKeys && r.status in Keys(StatusMap))
        && storage == Some(Saved(PersistAll(projects)))
        && monthFilter == "" && activeCardFilter == Total && FilteredProjects() == projects
      ensures !(rows != [] && confirmed && ImportRows(rows).Some?) ==>
        && projects == old(projects) && storage == old(storage) && shown == old(shown)
        && monthFilter == old(monthFilter) && activeCardFilter == old(activeCardFilter)
      ensures editingIndex == old(editingIndex)
    {
      if rows == [] || !confirmed {
        return;
      }
      match ImportRows(rows)
      case None =>
      case Some(rs) =>
        ImportRowsPointwise(rows);
        forall r | r in rs ensures r.assetType in AssetKeys && r.status in Keys(StatusMap) {
          var i :| 0 <= i < |rs| && rs[i] == r;
          assert ImportRow(rows[i]) == Some(r);
        }
        projects := rs;
        SortProjects();
        assert forall r :: r in projects ==> r in multiset(rs);
        SaveToStorage();
        ClearFilter();
    }

    /**
     * `exportToExcel`: the rows of the filtered records, or of the whole
     * collection when the view is empty; nothing when there is no record at
     * all. Reading the rows back restores the exported records when their
     * keys are known and their dates empty or `YYYY-MM-DD`.
     */
    method ExportToExcel() returns (rows: Option<seq<Row>>)
      requires Valid()
      ensures rows == ExportRows(FilteredProjects(), projects)
      ensures rows.None? <==> projects == []
      ensures rows.Some? ==> |rows.value| == (if shown != [] then |shown| else |projects|)
      ensures rows.Some? && (forall r :: r in projects ==> Portable(r)) ==>
        ImportRows(rows.value) == Some(if FilteredProjects() != [] then FilteredProjects() else projects)
    {
      var filtered := FilteredProjects();
      rows := ExportRows(filtered, projects);
      if rows.Some? && (forall r :: r in projects ==> Portable(r)) {
        forall r | r in filtered + projects ensures Portable(r) {
          if r in filtered {
            var k :| 0 <= k < |filtered| && filtered[k] == r;
            assert r == projects[shown[k]];
          }
        }
        ExportImportRows(filtered, projects);
      }
    }
  }
}

=== FILE: filters.dfy ===
/**
 * The filter pipeline of `applyFilters` (script.js:72-86): an optional
 * month-prefix filter, then one of four mutually exclusive card filters,
 * and the row highlight rule of the table (script.js:124).
 */
module Filters {
  import opened Records
  import opened Seqs

  /** The value of `activeCardFilter`: one of the four summary cards. */
  datatype Category = Total | ReTest | Privacy | Security

  /** `p.deliveryDate && p.deliveryDate.startsWith(month)` */
  predicate InMonth(r: Record, month: string) {
    r.deliveryDate != "" && month <= r.deliveryDate
  }

  /** The predicate of each card filter; `total` keeps everything. */
  predicate InCategory(r: Record, c: Category) {
    match c
    case Total => true
    case ReTest => r.status == "re-test"
    case Privacy => r.privacyIssues > 0
    case Security => r.securityIssues > 0
  }

  /** What `applyFilters` leaves behind: `filteredProjects` and `activeCardFilter`. */
  datatype View = View(records: seq<Record>, category: Category)

  /** Selecting a month forces the card filter back to `total`. */
  function EffectiveCategory(month: string, active: Category): (c: Category)
    ensures month != "" ==> c == Total
    ensures month == "" ==> c == active
  {
    if month != "" then Total else active
  }

  /** The two stages exactly as `applyFilters` runs them. */
  function ApplyFilters(projects: seq<Record>, month: string, active: Category): View {
    var temp := if month != "" then Filter(projects, r => InMonth(r, month)) else projects;
    var c := EffectiveCategory(month, active);
    var records :=
      match c
      case ReTest => Filter(temp, r => InCategory(r, ReTest))
      case Privacy => Filter(temp, r => InCategory(r, Privacy))
      case Security => Filter(temp, r => InCategory(r, Security))
      case Total => temp;
    View(records, c)
  }

  /** A record shown under the month filter `month` and the card filter `c`. */
  predicate Visible(r: Record, month: string, c: Category) {
    (month == "" || InMonth(r, month)) && InCategory(r, c)
  }

  /** The positions in `projects` of the records `applyFilters` shows. */
  function ShownPositions(projects: seq<Record>, month: string, active: Category): seq<nat> {
    var c := EffectiveCategory(month, active);
    Positions(projects, r => Visible(r, month, c))
  }

  /** The two stages compose into one filter by `Visible`. */
  lemma {:induction false} ApplyFiltersIsOneFilter(projects: seq<Record>, month: string, active: Category)
    ensures ApplyFilters(projects, month, active).records
         == Filter(projects, r => Visible(r, month, EffectiveCategory(month, active)))
  {
    var c := EffectiveCategory(month, active);
    var vis := r => Visible(r, month, c);
    if month != "" {
      var inMonth := r => InMonth(r, month);
      FilterCongruent(projects, inMonth, vis);
    } else if c == Total {
      FilterAll(projects, vis);
    } else {
      FilterCongruent(projects, r => InCategory(r, c), vis);
    }
  }

  /**
   * `applyFilters` yields an order-preserving subsequence of `projects`: the
   * records at the strictly increasing `ShownPositions`, which are exactly
   * the positions of the records in the selected month (when one is set)
   * that pass the active card filter. With a month set, the card filter is
   * `total` and the view is exactly the month-filtered list.
   */
  lemma {:induction false} ApplyFiltersMeaning(projects: seq<Record>, month: string, active: Category)
    ensures var v := ApplyFilters(projects, month, active);
      var idx := ShownPositions(projects, month, active);
      && v.category == EffectiveCategory(month, active)
      && StrictlyIncreasing(idx)
      && v.records == Pick(projects, idx)
      && (forall i :: 0 <= i < |projects| ==>
            (i in idx <==> (month == "" || InMonth(projects[i], month)) && InCategory(projects[i], v.category)))
      && (month != "" ==> v.records == Filter(projects, r => InMonth(r, month)))
  {
    var c := EffectiveCategory(month, active);
    ApplyFiltersIsOneFilter(projects, month, active);
    FilterIsSubsequence(projects, r => Visible(r, month, c));
    if month != "" {
      FilterCongruent(projects, r => Visible(r, month, c), r => InMonth(r, month));
    }
  }

  /** Without a month the view is the card filter alone; under `total` it is the whole collection. */
  lemma {:induction false} CardFilterOnly(projects: seq<Record>, c: Category)
    ensures ApplyFilters(projects, "", c).records == Filter(projects, r => InCategory(r, c))
    ensures c == Total ==> ApplyFilters(projects, "", c).records == projects
  {
    ApplyFiltersIsOneFilter(projects, "", c);
    FilterCongruent(projects, r => Visible(r, "", c), r => InCategory(r, c));
  }

  /** Every record of the view passes the month filter (if any) and the card filter. */
  lemma {:induction false} ViewRecordsQualify(projects: seq<Record>, month: string, active: Category, r: Record)
    requires r in ApplyFilters(projects, month, active).records
    ensures r in projects
    ensures month != "" ==> InMonth(r, month)
    ensures InCategory(r, EffectiveCategory(month, active))
  {
    ApplyFiltersIsOneFilter(projects, month, active);
  }

  /** The highlight of a table row (script.js:124). */
  predicate IsHighlighted(r: Record, c: Category) {
    (c == Privacy && r.privacyIssues > 0) || (c == Security && r.securityIssues > 0)
  }

  /**
   * Under the privacy or the security card every row shown is highlighted,
   * and under the other two none is.
   */
  lemma {:induction false} HighlightedRows(projects: seq<Record>, month: string, active: Category, r: Record)
    requires r in ApplyFilters(projects, month, active).records
    ensures var c := ApplyFilters(projects, month, active).category;
      IsHighlighted(r, c) <==> c == Privacy || c == Security
  {
    ViewRecordsQualify(projects, month, active, r);
  }
}

=== FILE: ordering.dfy ===
/**
 * The canonical order of the collection (`sortProjects`, script.js:188-194):
 * records with a delivery date first, ascending by date string, records
 * without a date at the end.
 */
module Ordering {
  import opened Records
  import opened Seqs

  /**
   * `a.localeCompare(b) <= 0` for the ASCII `YYYY-MM-DD` strings the
   * dashboard stores: plain lexicographic order on characters.
   */
  predicate LexLe(a: string, b: string) {
    a == [] || (b != [] && (a[0] < b[0] || (a[0] == b[0] && LexLe(a[1..], b[1..]))))
  }

  lemma {:induction false} LexLeTotal(a: string, b: string)
    ensures LexLe(a, b) || LexLe(b, a)
  {
    if a != [] && b != [] && a[0] == b[0] {
      LexLeTotal(a[1..], b[1..]);
    }
  }

  lemma {:induction false} LexLeTransitive(a: string, b: string, c: string)
    requires LexLe(a, b) && LexLe(b, c)
    ensures LexLe(a, c)
  {
    if a != [] && b != [] && c != [] && a[0] == b[0] == c[0] {
      LexLeTransitive(a[1..], b[1..], c[1..]);
    }
  }

  /** A record with a (truthy) delivery date. */
  predicate Dated(r: Record) {
    r.deliveryDate != ""
  }

  /** `a` may stand right before `b` in the canonical order. */
  predicate InOrder(a: Record, b: Record) {
    !Dated(b) || (Dated(a) && LexLe(a.deliveryDate, b.deliveryDate))
  }

  /** Each record may stand before its successor. */
  predicate Ordered(s: seq<Record>) {
    forall i :: 0 < i < |s| ==> InOrder(s[i - 1], s[i])
  }

  lemma {:induction false} InOrderTransitive(a: Record, b: Record, c: Record)
    requires InOrder(a, b) && InOrder(b, c)
    ensures InOrder(a, c)
  {
    if Dated(c) {
      LexLeTransitive(a.deliveryDate, b.deliveryDate, c.deliveryDate);
    }
  }

  /**
   * What the canonical order means for any two positions: a dated record
   * never follows an undated one, and dated records are in non-decreasing
   * order of their date strings.
   */
  lemma {:induction false} OrderedMeaning(s: seq<Record>)
    requires Ordered(s)
    ensures forall i, j :: 0 <= i < j < |s| && Dated(s[j]) ==> Dated(s[i])
    ensures forall i, j :: 0 <= i < j < |s| && Dated(s[j]) ==> LexLe(s[i].deliveryDate, s[j].deliveryDate)
  {
    forall i, j | 0 <= i < j < |s|
      ensures InOrder(s[i], s[j])
    {
      OrderedPair(s, i, j);
    }
  }

  lemma {:induction false} OrderedPair(s: seq<Record>, i: nat, j: nat)
    requires Ordered(s) && i < j < |s|
    ensures InOrder(s[i], s[j])
  {
    if i + 1 < j {
      OrderedPair(s, i, j - 1);
      InOrderTransitive(s[i], s[j - 1], s[j]);
    }
  }

  /** `a.localeCompare(b)` on ASCII strings: negative, zero or positive. */
  function LexCompare(a: string, b: string): int {
    if a == [] && b == [] then 0
    else if a == [] then -1
    else if b == [] then 1
    else if a[0] < b[0] then -1
    else if a[0] > b[0] then 1
    else LexCompare(a[1..], b[1..])
  }

  /** The three-way comparison agrees with `LexLe`, is antisymmetric and is 0 only on equal strings. */
  lemma {:induction false} LexCompareMeaning(a: string, b: string)
    ensures LexCompare(a, b) <= 0 <==> LexLe(a, b)
    ensures LexCompare(a, b) == -LexCompare(b, a)
    ensures LexCompare(a, b) == 0 <==> a == b
  {
    if a != [] && b != [] && a[0] == b[0] {
      LexCompareMeaning(a[1..], b[1..]);
      assert a == [a[0]] + a[1..] && b == [b[0]] + b[1..];
    }
  }

  /**
   * The comparator of `sortProjects` as written: an undated `a` is always
   * "after", then an undated `b` is always "before", then the dates decide.
   */
  function CompareAsWritten(a: Record, b: Record): int {
    if !Dated(a) then 1
    else if !Dated(b) then -1
    else LexCompare(a.deliveryDate, b.deliveryDate)
  }

  /**
   * For two undated records the comparator answers "after" both ways round,
   * so it is not a consistent comparator in the sense of
   * `Array.prototype.sort`, which then leaves the order implementation-defined.
   */
  lemma {:induction false} CompareAsWrittenInconsistent()
    ensures var a := Record("a", "app", "initial-test", "", 0, 0, "");
      var b := Record("b", "app", "initial-test", "", 0, 0, "");
      CompareAsWritten(a, b) > 0 && CompareAsWritten(b, a) > 0
  {
  }

  /**
   * The comparator evidently intended: two undated records compare equal.
   * It orders exactly as `InOrder` does.
   */
  function Compare(a: Record, b: Record): (c: int)
    ensures c <= 0 <==> InOrder(a, b)
  {
    if !Dated(a) && !Dated(b) then 0
    else if !Dated(a) then 1
    else if !Dated(b) then -1
    else
      LexCompareMeaning(a.deliveryDate, b.deliveryDate);
      LexCompare(a.deliveryDate, b.deliveryDate)
  }

  /**
   * `Compare` is a consistent comparator: antisymmetric, with "not after"
   * and "equal" both transitive; and it agrees with the comparator as
   * written whenever one of the two records is dated.
   */
  lemma {:induction false} CompareConsistent(a: Record, b: Record, c: Record)
    ensures Compare(a, b) == -Compare(b, a)
    ensures Compare(a, b) <= 0 && Compare(b, c) <= 0 ==> Compare(a, c) <= 0
    ensures Compare(a, b) == 0 && Compare(b, c) == 0 ==> Compare(a, c) == 0
    ensures Dated(a) || Dated(b) ==> Compare(a, b) == CompareAsWritten(a, b)
    ensures Compare(a, b) == 0 <==> a.deliveryDate == b.deliveryDate
  {
    LexCompareMeaning(a.deliveryDate, b.deliveryDate);
    LexCompareMeaning(b.deliveryDate, c.deliveryDate);
    LexCompareMeaning(a.deliveryDate, c.deliveryDate);
    if InOrder(a, b) && InOrder(b, c) {
      InOrderTransitive(a, b, c);
    }
  }

  /**
   * Puts `x` into the ordered sequence `s` after every record that may
   * precede it, so that `x` follows the records it ties with.
   */
  function Insert(s: seq<Record>, x: Record): (r: seq<Record>)
    ensures |r| == |s| + 1
    ensures multiset(r) == multiset(s) + multiset{x}
    ensures r[0] == x || (s != [] && r[0] == s[0])
    ensures Ordered(s) ==> Ordered(r)
  {
    if s == [] then [x]
    else if !InOrder(s[0], x) then
      assert InOrder(x, s[0]) by {
        LexLeTotal(x.deliveryDate, s[0].deliveryDate);
      }
      [x] + s
    else
      var rest := Insert(s[1..], x);
      assert s == [s[0]] + s[1..];
      [s[0]] + rest
  }

  /**
   * The records of `s` with delivery date `d`, in their order in `s`; for
   * `d == ""` the undated records. These are the classes of records that
   * `Compare` calls equal.
   */
  function WithDate(s: seq<Record>, d: string): seq<Record> {
    Filter(s, (r: Record) => r.deliveryDate == d)
  }

  /** Records that compare equal stand in the same relative order in `s` and `t`. */
  ghost predicate SameTies(s: seq<Record>, t: seq<Record>) {
    forall d :: WithDate(s, d) == WithDate(t, d)
  }

  /** In an ordered sequence that `x` must precede, no record shares the date of `x`. */
  lemma {:induction false} NoTieAfter(s: seq<Record>, x: Record)
    requires Ordered(s) && s != [] && !InOrder(s[0], x)
    ensures WithDate(s, x.deliveryDate) == []
  {
    LexCompareMeaning(x.deliveryDate, x.deliveryDate);
    forall k | 0 <= k < |s|
      ensures s[k].deliveryDate != x.deliveryDate
    {
      if 0 < k {
        OrderedPair(s, 0, k);
      }
    }
    FilterNone(s, (r: Record) => r.deliveryDate == x.deliveryDate);
  }

  lemma {:induction false} WithDateConcat(a: seq<Record>, b: seq<Record>, d: string)
    ensures WithDate(a + b, d) == WithDate(a, d) + WithDate(b, d)
  {
    FilterConcat(a, b, (r: Record) => r.deliveryDate == d);
  }

  lemma {:induction false} WithDateSingle(x: Record, d: string)
    ensures WithDate([x], d) == if x.deliveryDate == d then [x] else []
  {
    assert [x][..0] == [];
  }

  lemma {:induction false} OrderedTail(s: seq<Record>)
    requires Ordered(s) && s != []
    ensures Ordered(s[1..])
  {
    forall i | 0 < i < |s[1..]|
      ensures InOrder(s[1..][i - 1], s[1..][i])
    {
      assert s[1..][i - 1] == s[i] && s[1..][i] == s[i + 1];
    }
  }

  /** Inserting `x` appends it to the records that tie with it and changes no other class. */
  lemma {:induction false} InsertWithDate(s: seq<Record>, x: Record, d: string)
    requires Ordered(s)
    ensures WithDate(Insert(s, x), d) == WithDate(s, d) + (if x.deliveryDate == d then [x] else [])
  {
    if s == [] {
      WithDateSingle(x, d);
      assert WithDate([], d) == [];
    } else if !InOrder(s[0], x) {
      WithDateConcat([x], s, d);
      WithDateSingle(x, d);
      if x.deliveryDate == d {
        NoTieAfter(s, x);
      }
    } else {
      assert s == [s[0]] + s[1..];
      OrderedTail(s);
      InsertWithDate(s[1..], x, d);
      WithDateConcat([s[0]], Insert(s[1..], x), d);
      WithDateConcat([s[0]], s[1..], d);
    }
  }

  /** Two records with the same date keep their order: the later one is inserted after the earlier. */
  lemma {:induction false} InsertAfterTie(a: Record, b: Record)
    requires a.deliveryDate == b.deliveryDate
    ensures Insert([a], b) == [a, b]
  {
    LexCompareMeaning(a.deliveryDate, b.deliveryDate);
    assert InOrder(a, b);
    assert [a][1..] == [];
  }

  /**
   * Sorts a copy of `records` into the canonical order, stably: the result
   * is a permutation of the input in which records with the same delivery
   * date keep their input order, as `Array.prototype.sort` guarantees for
   * a consistent comparator.
   */
  method SortRecords(records: seq<Record>) returns (sorted: seq<Record>)
    ensures Ordered(sorted)
    ensures multiset(sorted) == multiset(records)
    ensures |sorted| == |records|
    ensures SameTies(sorted, records)
  {
    sorted := [];
    var i := 0;
    while i < |records|
      invariant 0 <= i <= |records|
      invariant Ordered(sorted)
      invariant multiset(sorted) == multiset(records[..i])
      invariant SameTies(sorted, records[..i])
    {
      assert records[..i + 1] == records[..i] + [records[i]];
      forall d
        ensures WithDate(Insert(sorted, records[i]), d) == WithDate(records[..i + 1], d)
      {
        InsertWithDate(sorted, records[i], d);
        assert records[..i + 1][..i] == records[..i];
      }
      sorted := Insert(sorted, records[i]);
      i := i + 1;
    }
    assert records[..i] == records;
    assert |sorted| == |multiset(sorted)| == |records|;
  }
}

=== FILE: records.dfy ===
/**
 * The project-delivery record and the two label tables of the dashboard
 * (script.js:11-12), with the inverse tables that the spreadsheet import
 * builds from them (script.js:349-350).
 */
module Records {

  datatype Option<T> = None | Some(value: T)

  /**
   * One delivery record. `assetType` and `status` are the internal keys
   * ("app", "re-test", ...); they are strings because a JSON import may
   * carry any string there. An empty `deliveryDate` stands for a record
   * without a delivery date (the source only tests it for truthiness).
   */
  datatype Record = Record(
    name: string,
    assetType: string,
    status: string,
    deliveryDate: string,
    privacyIssues: int,
    securityIssues: int,
    remarks: string)

  /** An object literal used as a dictionary: its entries in declaration order. */
  type Table = seq<(string, string)>

  /** `table[key]` for an own key: the value of the last entry with that key. */
  function Lookup(t: Table, key: string): (r: Option<string>)
    ensures r.Some? <==> key in Keys(t)
  {
    if t == [] then None
    else if t[|t| - 1].0 == key then Some(t[|t| - 1].1)
    else Lookup(t[..|t| - 1], key)
  }

  function Keys(t: Table): (ks: seq<string>)
    ensures |ks| == |t| && forall i :: 0 <= i < |t| ==> ks[i] == t[i].0
  {
    seq(|t|, i requires 0 <= i < |t| => t[i].0)
  }

  function Labels(t: Table): (ls: seq<string>)
    ensures |ls| == |t| && forall i :: 0 <= i < |t| ==> ls[i] == t[i].1
  {
    seq(|t|, i requires 0 <= i < |t| => t[i].1)
  }

  /** `Object.fromEntries(Object.entries(t).map(([k, v]) => [v, k]))`. */
  function Invert(t: Table): Table
  {
    seq(|t|, i requires 0 <= i < |t| => (t[i].1, t[i].0))
  }

  predicate Distinct(s: seq<string>) {
    forall i, j :: 0 <= i < j < |s| ==> s[i] != s[j]
  }

  /** A table whose labels are distinct can be read both ways. */
  lemma {:induction false} LookupInvert(t: Table, key: string)
    requires Distinct(Labels(t))
    requires key in Keys(t)
    ensures Lookup(t, key).Some?
    ensures Lookup(Invert(t), Lookup(t, key).value) == Some(key)
  {
    var n := |t| - 1;
    var inv := Invert(t);
    assert inv[..n] == Invert(t[..n]);
    if t[n].0 == key {
      assert inv[n] == (t[n].1, key);
    } else {
      LookupSkipLast(t, key);
      var i :| 0 <= i < |t| && Keys(t)[i] == key;
      assert i < n && Keys(t[..n])[i] == key;
      assert Distinct(Labels(t[..n])) by {
        assert Labels(t[..n]) == Labels(t)[..n];
      }
      LookupInvert(t[..n], key);
      var v := Lookup(t[..n], key).value;
      assert v != t[n].1 by {
        LookupIsLabel(t[..n], key);
        var j :| 0 <= j < n && Labels(t[..n])[j] == v;
        assert Labels(t)[j] == v && Labels(t)[n] == t[n].1;
      }
      assert inv[n].0 != v;
      LookupSkipLast(inv, v);
    }
  }

  /** An entry with another key does not change what a lookup finds. */
  lemma {:induction false} LookupSkipLast(t: Table, key: string)
    requires t != [] && t[|t| - 1].0 != key
    ensures Lookup(t, key) == Lookup(t[..|t| - 1], key)
  {
  }

  lemma {:induction false} LookupIsLabel(t: Table, key: string)
    requires Lookup(t, key).Some?
    ensures Lookup(t, key).value in Labels(t)
  {
    var n := |t| - 1;
    if t[n].0 != key {
      LookupIsLabel(t[..n], key);
      assert Labels(t[..n]) == Labels(t)[..n];
    } else {
      assert Labels(t)[n] == t[n].1;
    }
  }

  /** `ASSET_TYPE_MAP` */
  const AssetTypeMap: Table :=
    [("app", "APP"), ("miniprogram", "小程序"), ("wechat", "公众号"), ("h5", "H5")]

  /** `STATUS_MAP` */
  const StatusMap: Table := [("initial-test", "初测"), ("re-test", "复测")]

  /** The asset-type keys in the fixed order of `Object.keys(ASSET_TYPE_MAP)`. */
  const AssetKeys: seq<string> := Keys(AssetTypeMap)

  /** `reverseAssetMap` and `reverseStatusMap` of the spreadsheet import. */
  const ReverseAssetMap: Table := Invert(AssetTypeMap)
  const ReverseStatusMap: Table := Invert(StatusMap)

  const DefaultAssetType := "app"
  const DefaultStatus := "initial-test"

  /** `reverseAssetMap[label] || 'app'` */
  function AssetTypeOfLabel(text: string): string {
    match Lookup(ReverseAssetMap, text)
    case Some(k) => k
    case None => DefaultAssetType
  }

  /** `reverseStatusMap[label] || 'initial-test'` */
  function StatusOfLabel(text: string): string {
    match Lookup(ReverseStatusMap, text)
    case Some(k) => k
    case None => DefaultStatus
  }

  /** `ASSET_TYPE_MAP[key] || key`: the export label, the key itself when it has none. */
  function AssetTypeLabel(key: string): string {
    match Lookup(AssetTypeMap, key)
    case Some(l) => l
    case None => key
  }

  /** `STATUS_MAP[key] || key` */
  function StatusLabel(key: string): string {
    match Lookup(StatusMap, key)
    case Some(l) => l
    case None => key
  }

  lemma {:induction false} LabelsAreDistinct()
    ensures Distinct(Labels(AssetTypeMap)) && Distinct(Labels(StatusMap))
  {
  }

  /** Every key has a label, and reading the label back gives the key. */
  lemma {:induction false} AssetTypeRoundTrip(key: string)
    requires key in AssetKeys
    ensures Lookup(AssetTypeMap, key).Some?
    ensures AssetTypeOfLabel(AssetTypeLabel(key)) == key
  {
    LabelsAreDistinct();
    LookupInvert(AssetTypeMap, key);
  }

  lemma {:induction false} StatusRoundTrip(key: string)
    requires key in Keys(StatusMap)
    ensures Lookup(StatusMap, key).Some?
    ensures StatusOfLabel(StatusLabel(key)) == key
  {
    LabelsAreDistinct();
    LookupInvert(StatusMap, key);
  }

  /** A label that is not in the table falls back to the default key. */
  lemma {:induction false} UnknownLabelDefaults(text: string)
    ensures text !in Labels(AssetTypeMap) ==> AssetTypeOfLabel(text) == DefaultAssetType
    ensures text !in Labels(StatusMap) ==> StatusOfLabel(text) == DefaultStatus
  {
    assert Keys(ReverseAssetMap) == Labels(AssetTypeMap);
    assert Keys(ReverseStatusMap) == Labels(StatusMap);
  }

  /** Whatever the label, the import yields one of the known keys. */
  lemma {:induction false} ImportedKeysAreKnown(text: string)
    ensures AssetTypeOfLabel(text) in AssetKeys
    ensures StatusOfLabel(text) in Keys(StatusMap)
  {
    assert AssetKeys[0] == DefaultAssetType && Keys(StatusMap)[0] == DefaultStatus;
    var a := Lookup(ReverseAssetMap, text);
    if a.Some? {
      LookupIsLabel(ReverseAssetMap, text);
      assert Labels(ReverseAssetMap) == AssetKeys;
    }
    var s := Lookup(ReverseStatusMap, text);
    if s.Some? {
      LookupIsLabel(ReverseStatusMap, text);
      assert Labels(ReverseStatusMap) == Keys(StatusMap);
    }
  }

  // ---------------------------------------------------------------- inherited members

  /**
   * The property names every plain JavaScript object inherits from
   * `Object.prototype`; reading one of them on an object that lacks it as
   * an own property yields a function (or, for `__proto__`, an object),
   * never `undefined`.
   */
  const InheritedNames: set<string> := {
    "constructor", "hasOwnProperty", "isPrototypeOf", "propertyIsEnumerable",
    "toLocaleString", "toString", "valueOf", "__proto__",
    "__defineGetter__", "__defineSetter__", "__lookupGetter__", "__lookupSetter__"}

  /** The value of `table[text] || fallback` on a plain object. */
  datatype Property = Key(key: string) | InheritedMember(name: string)

  /**
   * `reverseAssetMap[text] || 'app'` (and the status lookup) as written:
   * the inverted table is a plain object, so a label that names an
   * inherited member yields that member, which is truthy.
   */
  function ReverseLookupAsWritten(t: Table, text: string, fallback: string): (p: Property)
    ensures p.InheritedMember? <==> Lookup(Invert(t), text).None? && text in InheritedNames
  {
    match Lookup(Invert(t), text)
    case Some(k) => Key(k)
    case None => if text in InheritedNames then InheritedMember(text) else Key(fallback)
  }

  /**
   * A sheet whose asset-type cell reads `constructor` is imported as written
   * with the `Object` function as its asset type (and likewise for the
   * status), where the default key was meant.
   */
  lemma {:induction false} InheritedLabelImported()
    ensures ReverseLookupAsWritten(AssetTypeMap, "constructor", DefaultAssetType) == InheritedMember("constructor")
    ensures ReverseLookupAsWritten(StatusMap, "toString", DefaultStatus) == InheritedMember("toString")
    ensures AssetTypeOfLabel("constructor") == DefaultAssetType
    ensures StatusOfLabel("toString") == DefaultStatus
  {
    UnknownLabelDefaults("constructor");
    UnknownLabelDefaults("toString");
  }

  /**
   * On every other label the lookup as written agrees with the corrected
   * lookups `AssetTypeOfLabel` and `StatusOfLabel`, which read own entries only.
   */
  lemma {:induction false} ReverseLookupAgrees(text: string)
    requires text !in InheritedNames
    ensures ReverseLookupAsWritten(AssetTypeMap, text, DefaultAssetType) == Key(AssetTypeOfLabel(text))
    ensures ReverseLookupAsWritten(StatusMap, text, DefaultStatus) == Key(StatusOfLabel(text))
  {
  }
}

=== FILE: seqs.dfy ===
/**
 * `Array.prototype.filter` and `reduce` over sequences, with the facts the
 * dashboard relies on: a filter keeps exactly the elements that satisfy the
 * predicate, in their original order, and sums over elements that agree
 * are equal.
 */
module Seqs {
  import opened Records

  /** `s.filter(p)`, written as the left-to-right walk it performs. */
  function Filter<T>(s: seq<T>, p: T -> bool): (r: seq<T>)
    ensures |r| <= |s|
    ensures forall x :: x in r ==> x in s && p(x)
  {
    if s == [] then []
    else
      var init := Filter(s[..|s| - 1], p);
      if p(s[|s| - 1]) then init + [s[|s| - 1]] else init
  }

  /** The positions, in increasing order, of the elements of `s` that satisfy `p`. */
  function Positions<T>(s: seq<T>, p: T -> bool): (idx: seq<nat>)
    ensures forall k :: 0 <= k < |idx| ==> idx[k] < |s|
  {
    if s == [] then []
    else
      var init := Positions(s[..|s| - 1], p);
      if p(s[|s| - 1]) then init + [|s| - 1] else init
  }

  predicate StrictlyIncreasing(idx: seq<nat>) {
    forall i, j :: 0 <= i < j < |idx| ==> idx[i] < idx[j]
  }

  /** The elements of `s` at the positions `idx`, in that order. */
  function Pick<T>(s: seq<T>, idx: seq<nat>): (r: seq<T>)
    requires forall k :: 0 <= k < |idx| ==> idx[k] < |s|
    ensures |r| == |idx| && forall k :: 0 <= k < |idx| ==> r[k] == s[idx[k]]
  {
    seq(|idx|, k requires 0 <= k < |idx| => s[idx[k]])
  }

  /**
   * The filter is an order-preserving subsequence: it is what one reads at
   * strictly increasing positions, and those positions are exactly the ones
   * whose element satisfies the predicate.
   */
  lemma {:induction false} FilterIsSubsequence<T>(s: seq<T>, p: T -> bool)
    ensures StrictlyIncreasing(Positions(s, p))
    ensures Filter(s, p) == Pick(s, Positions(s, p))
    ensures forall i :: 0 <= i < |s| ==> (i in Positions(s, p) <==> p(s[i]))
  {
    PositionsIncrease(s, p);
    FilterIsPick(s, p);
    PositionsAreMatches(s, p);
  }

  lemma {:induction false} PositionsIncrease<T>(s: seq<T>, p: T -> bool)
    ensures StrictlyIncreasing(Positions(s, p))
  {
    if s != [] {
      PositionsIncrease(s[..|s| - 1], p);
    }
  }

  lemma {:induction false} FilterIsPick<T>(s: seq<T>, p: T -> bool)
    ensures Filter(s, p) == Pick(s, Positions(s, p))
  {
    if s != [] {
      var n := |s| - 1;
      FilterIsPick(s[..n], p);
      var idx := Positions(s[..n], p);
      assert Pick(s[..n], idx) == Pick(s, idx);
      if p(s[n]) {
        assert Pick(s, idx + [n]) == Pick(s, idx) + [s[n]];
      }
    }
  }

  lemma {:induction false} PositionsAreMatches<T>(s: seq<T>, p: T -> bool)
    ensures forall i :: 0 <= i < |s| ==> (i in Positions(s, p) <==> p(s[i]))
  {
    if s != [] {
      var n := |s| - 1;
      PositionsAreMatches(s[..n], p);
      assert forall i :: 0 <= i < n ==> s[..n][i] == s[i];
    }
  }

  /** An element is kept if and only if it occurs in the input and satisfies the predicate. */
  lemma {:induction false} FilterMembership<T>(s: seq<T>, p: T -> bool, x: T)
    ensures x in Filter(s, p) <==> x in s && p(x)
  {
    if s != [] {
      var n := |s| - 1;
      FilterMembership(s[..n], p, x);
      assert s == s[..n] + [s[n]];
    }
  }

  /** A predicate that holds everywhere keeps everything. */
  lemma {:induction false} FilterAll<T>(s: seq<T>, p: T -> bool)
    requires forall x :: x in s ==> p(x)
    ensures Filter(s, p) == s
  {
    if s != [] {
      var n := |s| - 1;
      assert forall x :: x in s[..n] ==> x in s;
      FilterAll(s[..n], p);
      assert s[n] in s;
      assert s[..n] + [s[n]] == s;
    }
  }

  /** Filters by predicates that agree on the elements give the same result. */
  lemma {:induction false} FilterCongruent<T>(s: seq<T>, p: T -> bool, q: T -> bool)
    requires forall x :: x in s ==> p(x) == q(x)
    ensures Filter(s, p) == Filter(s, q)
    ensures Positions(s, p) == Positions(s, q)
  {
    if s != [] {
      var n := |s| - 1;
      assert forall x :: x in s[..n] ==> x in s;
      FilterCongruent(s[..n], p, q);
      assert s[n] in s;
    }
  }

  /** A predicate that holds nowhere keeps nothing. */
  lemma {:induction false} FilterNone<T>(s: seq<T>, p: T -> bool)
    requires forall x :: x in s ==> !p(x)
    ensures Filter(s, p) == []
  {
    if s != [] {
      var n := |s| - 1;
      assert forall x :: x in s[..n] ==> x in s;
      FilterNone(s[..n], p);
      assert s[n] in s;
    }
  }

  /** Filtering a concatenation filters each part. */
  lemma {:induction false} FilterConcat<T>(a: seq<T>, b: seq<T>, p: T -> bool)
    ensures Filter(a + b, p) == Filter(a, p) + Filter(b, p)
  {
    if b == [] {
      assert a + b == a;
    } else {
      var n := |b| - 1;
      FilterConcat(a, b[..n], p);
      assert (a + b)[..|a + b| - 1] == a + b[..n];
      assert (a + b)[|a + b| - 1] == b[n];
    }
  }

  /** A non-empty sequence is its prefix followed by its last element. */
  lemma {:induction false} SplitLast<T>(s: seq<T>)
    requires s != []
    ensures s[..|s| - 1] + [s[|s| - 1]] == s
  {
  }

  /**
   * `xs.map(f)` for an `f` that may throw (`None`): every result in order,
   * or nothing as soon as one element fails.
   */
  function MapAll<A, B>(xs: seq<A>, f: A -> Option<B>): (r: Option<seq<B>>)
    ensures r.Some? ==> |r.value| == |xs|
    ensures r.None? <==> exists i :: 0 <= i < |xs| && f(xs[i]).None?
  {
    if xs == [] then Some([])
    else
      var n := |xs| - 1;
      match MapAll(xs[..n], f)
      case None =>
        var i :| 0 <= i < n && f(xs[..n][i]).None?;
        assert xs[i] == xs[..n][i];
        None
      case Some(init) =>
        match f(xs[n])
        case None => None
        case Some(y) =>
          assert forall i :: 0 <= i < n ==> xs[..n][i] == xs[i];
          Some(init + [y])
  }

  /** When the map succeeds, each result is what `f` gives for the element at the same position. */
  lemma {:induction false} MapAllPointwise<A, B>(xs: seq<A>, f: A -> Option<B>)
    requires MapAll(xs, f).Some?
    ensures forall i :: 0 <= i < |xs| ==> f(xs[i]) == Some(MapAll(xs, f).value[i])
  {
    if xs != [] {
      var n := |xs| - 1;
      MapAllPointwise(xs[..n], f);
      var init := MapAll(xs[..n], f).value;
      var ys := MapAll(xs, f).value;
      assert ys == init + [f(xs[n]).value];
      forall i | 0 <= i < |xs|
        ensures f(xs[i]) == Some(ys[i])
      {
        if i < n {
          assert xs[..n][i] == xs[i];
        }
      }
    }
  }

  /** The converse: elements that each map to a result make the map succeed with those results. */
  lemma {:induction false} MapAllOfPointwise<A, B>(xs: seq<A>, ys: seq<B>, f: A -> Option<B>)
    requires |xs| == |ys|
    requires forall i :: 0 <= i < |xs| ==> f(xs[i]) == Some(ys[i])
    ensures MapAll(xs, f) == Some(ys)
  {
    if xs != [] {
      var n := |xs| - 1;
      assert forall i :: 0 <= i < n ==> xs[..n][i] == xs[i] && ys[..n][i] == ys[i];
      MapAllOfPointwise(xs[..n], ys[..n], f);
      SplitLast(ys);
    }
  }

  /** `s.reduce((sum, x) => sum + f(x), 0)` */
  function Sum<T>(s: seq<T>, f: T -> int): int {
    if s == [] then 0 else Sum(s[..|s| - 1], f) + f(s[|s| - 1])
  }

  lemma {:induction false} SumCongruent<T>(s: seq<T>, f: T -> int, g: T -> int)
    requires forall x :: x in s ==> f(x) == g(x)
    ensures Sum(s, f) == Sum(s, g)
  {
    if s != [] {
      var n := |s| - 1;
      assert forall x :: x in s[..n] ==> x in s;
      SumCongruent(s[..n], f, g);
      assert s[n] in s;
    }
  }
}

=== FILE: text.dfy ===
/**
 * The string operations the form and the spreadsheet import rely on:
 * `String.prototype.trim`, the count coercion `parseInt(x, 10) || 0`, and
 * the decimal rendering of an integer that `parseInt` reads back.
 */
module Text {
  import opened Records

  /**
   * The ECMAScript WhiteSpace and LineTerminator code points, the ones
   * `trim` and `parseInt` skip: tab to carriage return, space, no-break
   * space, the Ogham space mark, the en quad to the hair space, the line and
   * paragraph separators, the narrow no-break space, the medium mathematical
   * space, the ideographic space and the byte order mark.
   */
  predicate IsWhiteSpace(c: char) {
    || '\t' <= c <= '\r'
    || c == ' '
    || c == '\U{00A0}'
    || c == '\U{1680}'
    || '\U{2000}' <= c <= '\U{200A}'
    || '\U{2028}' <= c <= '\U{2029}'
    || c == '\U{202F}'
    || c == '\U{205F}'
    || c == '\U{3000}'
    || c == '\U{FEFF}'
  }

  predicate AllWhiteSpace(s: string) {
    forall i :: 0 <= i < |s| ==> IsWhiteSpace(s[i])
  }

  /** The first position at or after `i` that does not hold white space, or `|s|`. */
  function SkipForward(s: string, i: nat): (j: nat)
    requires i <= |s|
    ensures i <= j <= |s| && (j == |s| || !IsWhiteSpace(s[j]))
    ensures forall k :: i <= k < j ==> IsWhiteSpace(s[k])
    decreases |s| - i
  {
    if i < |s| && IsWhiteSpace(s[i]) then SkipForward(s, i + 1) else i
  }

  /** The end of `s[lo..j]` once the white space at its end is dropped. */
  function SkipBackward(s: string, lo: nat, j: nat): (e: nat)
    requires lo <= j <= |s|
    ensures lo <= e <= j && (e == lo || !IsWhiteSpace(s[e - 1]))
    ensures forall k :: e <= k < j ==> IsWhiteSpace(s[k])
  {
    if lo < j && IsWhiteSpace(s[j - 1]) then SkipBackward(s, lo, j - 1) else j
  }

  /** `s.trimStart()`, the white space skip `parseInt` begins with. */
  function TrimStart(s: string): string {
    s[SkipForward(s, 0)..]
  }

  /** Where the text `s.trim()` keeps starts. */
  function TrimOffset(s: string): (i: nat)
    ensures i <= |s|
  {
    SkipForward(s, 0)
  }

  /** `s.trim()` */
  function Trim(s: string): string {
    var i := SkipForward(s, 0);
    s[i..SkipBackward(s, i, |s|)]
  }

  /**
   * `trim` drops exactly the white space at both ends: the result is the
   * piece of the input between a white-space prefix and a white-space
   * suffix, it neither starts nor ends with white space, and it is empty
   * exactly when the input is all white space.
   */
  lemma {:induction false} TrimMeaning(s: string)
    ensures var r := Trim(s); var i := TrimOffset(s);
      && i + |r| <= |s| && r == s[i..i + |r|]
      && AllWhiteSpace(s[..i]) && AllWhiteSpace(s[i + |r|..])
      && (r == "" || (!IsWhiteSpace(r[0]) && !IsWhiteSpace(r[|r| - 1])))
      && (r == "" <==> AllWhiteSpace(s))
  {
    var i := SkipForward(s, 0);
    var e := SkipBackward(s, i, |s|);
    var r := s[i..e];
    assert Trim(s) == r;
    assert AllWhiteSpace(s[..i]) by {
      assert forall k :: 0 <= k < i ==> s[..i][k] == s[k];
    }
    assert AllWhiteSpace(s[e..]) by {
      assert forall k :: 0 <= k < |s| - e ==> s[e..][k] == s[e + k];
    }
    if r == "" {
      assert i == e;
      assert forall k :: 0 <= k < |s| ==> IsWhiteSpace(s[k]);
    } else {
      assert r[0] == s[i] && r[|r| - 1] == s[e - 1];
    }
  }

  /** Trimming text that is already trimmed changes nothing. */
  lemma {:induction false} TrimTrimmed(s: string)
    requires s == "" || (!IsWhiteSpace(s[0]) && !IsWhiteSpace(s[|s| - 1]))
    ensures Trim(s) == s
  {
    if s != "" {
      assert SkipForward(s, 0) == 0;
      assert SkipBackward(s, 0, |s|) == |s|;
      assert s[0..|s|] == s;
    }
  }

  predicate IsDigit(c: char) {
    '0' <= c <= '9'
  }

  function DigitValue(c: char): nat
    requires IsDigit(c)
  {
    c as int - '0' as int
  }

  function DigitChar(d: nat): (c: char)
    requires d < 10
    ensures IsDigit(c) && DigitValue(c) == d
  {
    ('0' as int + d) as char
  }

  predicate AllDigits(s: string) {
    forall i :: 0 <= i < |s| ==> IsDigit(s[i])
  }

  /** The longest prefix of `s` made of decimal digits. */
  function DigitPrefix(s: string): (ds: string)
    ensures ds <= s
    ensures AllDigits(ds)
  {
    if s != [] && IsDigit(s[0]) then [s[0]] + DigitPrefix(s[1..]) else []
  }

  /** The value of a run of decimal digits, most significant first. */
  function DigitsValue(ds: string): nat
    requires AllDigits(ds)
  {
    if ds == [] then 0 else DigitsValue(ds[..|ds| - 1]) * 10 + DigitValue(ds[|ds| - 1])
  }

  /**
   * `parseInt(s, 10)`: skip leading white space, read an optional sign and
   * the longest run of decimal digits; `None` stands for `NaN` (no digit).
   */
  function ParseInt(s: string): Option<int> {
    ParseSigned(TrimStart(s))
  }

  /** The sign and digits `parseInt` reads once the white space is skipped. */
  function ParseSigned(t: string): Option<int> {
    if t != [] && (t[0] == '-' || t[0] == '+') then
      match ParseUnsigned(t[1..])
      case Some(v) => Some(if t[0] == '-' then -v else v)
      case None => None
    else ParseUnsigned(t)
  }

  function ParseUnsigned(t: string): Option<int> {
    var ds := DigitPrefix(t);
    if ds == [] then None else Some(DigitsValue(ds))
  }

  /** `parseInt(s, 10) || 0`: `NaN` (and `-0`) become 0. */
  function CoerceCount(s: string): int {
    match ParseInt(s)
    case Some(n) => n
    case None => 0
  }

  /** The decimal digits of a natural number, without leading zeros. */
  function NatDigits(n: nat): (ds: string)
    ensures ds != [] && AllDigits(ds)
  {
    if n < 10 then [DigitChar(n)] else NatDigits(n / 10) + [DigitChar(n % 10)]
  }

  /** `String(n)` for an integer `n`. */
  function Decimal(n: int): string {
    if n < 0 then "-" + NatDigits(-n) else NatDigits(n)
  }

  lemma {:induction false} NatDigitsValue(n: nat)
    ensures DigitsValue(NatDigits(n)) == n
  {
    if n >= 10 {
      NatDigitsValue(n / 10);
      var ds := NatDigits(n);
      assert ds[..|ds| - 1] == NatDigits(n / 10);
    }
  }

  lemma {:induction false} DigitPrefixOfDigits(ds: string)
    requires AllDigits(ds)
    ensures DigitPrefix(ds) == ds
  {
    if ds != [] {
      DigitPrefixOfDigits(ds[1..]);
    }
  }

  lemma {:induction false} ParseUnsignedOfDigits(ds: string)
    requires ds != [] && AllDigits(ds)
    ensures ParseUnsigned(ds) == Some(DigitsValue(ds) as int)
  {
    DigitPrefixOfDigits(ds);
  }

  /** Digits with nothing in front of them parse to their value. */
  lemma {:induction false} ParseIntUnsigned(ds: string, v: int)
    requires ds != [] && IsDigit(ds[0]) && ParseUnsigned(ds) == Some(v)
    ensures ParseInt(ds) == Some(v)
  {
    TrimStartUnchanged(ds);
  }

  /** A minus sign in front of digits negates their value. */
  lemma {:induction false} ParseIntNegative(ds: string, n: int)
    requires ParseUnsigned(ds) == Some(-n)
    ensures ParseInt("-" + ds) == Some(n)
  {
    var t := "-" + ds;
    TrimStartUnchanged(t);
    assert t[0] == '-' && t[1..] == ds;
  }

  /** Text that does not start with white space is its own `trimStart`. */
  lemma {:induction false} TrimStartUnchanged(s: string)
    requires s != [] && !IsWhiteSpace(s[0])
    ensures TrimStart(s) == s
  {
    assert SkipForward(s, 0) == 0;
  }

  /** `parseInt(String(n), 10)` gives `n` back: the rendering and the parse are inverse. */
  lemma {:induction false} ParseIntDecimal(n: int)
    ensures ParseInt(Decimal(n)) == Some(n)
    ensures CoerceCount(Decimal(n)) == n
  {
    var m: nat := if n < 0 then -n else n;
    var ds := NatDigits(m);
    NatDigitsValue(m);
    ParseUnsignedOfDigits(ds);
    if n < 0 {
      ParseIntNegative(ds, n);
    } else {
      ParseIntUnsigned(ds, n);
    }
  }
}

=== FILE: transfer.dfy ===
/**
 * How records leave and re-enter the dashboard: the spreadsheet export
 * (`exportToExcel`, script.js:266-281), the spreadsheet import
 * (`importExcel`, script.js:343-360), the backfill applied to stored data
 * (`loadFromLocalStorage`, script.js:44), the JSON import payload
 * (`importData`, script.js:307-318) and the edit form (`saveProject`,
 * script.js:219-228; `showEditModal`, script.js:204-217; `clearForm`,
 * script.js:250-258).
 */
module Transfer {
  import opened Records
  import opened Text
  import opened Calendar
  import opened Seqs

  // ---------------------------------------------------------------- spreadsheet rows

  const NameColumn := "项目名称"
  const AssetTypeColumn := "资产类型"
  const StatusColumn := "交付状态"
  const DateColumn := "交付时间"
  const PrivacyColumn := "隐私合规问题"
  const SecurityColumn := "安全漏洞问题"
  const RemarksColumn := "备注"

  /** One sheet row as the sheet reader hands it over: column label to cell, empty cells absent. */
  type Row = map<string, Cell>

  /** The row `exportToExcel` writes for one record: keys replaced by their labels. */
  function ExportRow(r: Record): (row: Row)
    ensures row.Keys == {NameColumn, AssetTypeColumn, StatusColumn, DateColumn, PrivacyColumn, SecurityColumn, RemarksColumn}
  {
    map[NameColumn := StringCell(r.name),
        AssetTypeColumn := StringCell(AssetTypeLabel(r.assetType)),
        StatusColumn := StringCell(StatusLabel(r.status)),
        DateColumn := StringCell(r.deliveryDate),
        PrivacyColumn := NumberCell(r.privacyIssues),
        SecurityColumn := NumberCell(r.securityIssues),
        RemarksColumn := StringCell(r.remarks)]
  }

  /**
   * `exportToExcel`: the filtered records when there are any, otherwise the
   * whole collection; nothing (the "no data" alert) when both are empty.
   */
  function ExportRows(filtered: seq<Record>, projects: seq<Record>): (rows: Option<seq<Row>>)
    ensures rows.None? <==> filtered == [] && projects == []
    ensures rows.Some? ==> |rows.value| == (if filtered != [] then |filtered| else |projects|)
  {
    var data := if |filtered| > 0 then filtered else projects;
    if |data| == 0 then None
    else Some(ExportAll(data))
  }

  /** One exported row per record, in order. */
  function ExportAll(data: seq<Record>): seq<Row>
  {
    seq(|data|, i requires 0 <= i < |data| => ExportRow(data[i]))
  }

  /** The cell of `column`, `None` standing for `undefined`. */
  function CellOf(row: Row, column: string): Option<Cell> {
    if column in row then Some(row[column]) else None
  }

  /** `row[column] || ''` for a text column. */
  function CellText(c: Option<Cell>): string {
    match c
    case Some(StringCell(s)) => s
    case Some(NumberCell(n)) => if n == 0 then "" else Decimal(n)
    case None => ""
  }

  /**
   * `reverseAssetMap[row[column]] || 'app'`: always one of the asset-type
   * keys; a cell that is no label (or no text) gives the default.
   */
  function CellAssetType(c: Option<Cell>): (k: string)
    ensures k in AssetKeys
    ensures !(c.Some? && c.value.StringCell?) ==> k == DefaultAssetType
  {
    match c
    case Some(StringCell(s)) => ImportedKeysAreKnown(s); AssetTypeOfLabel(s)
    case _ => assert AssetKeys[0] == DefaultAssetType; DefaultAssetType
  }

  /** `reverseStatusMap[row[column]] || 'initial-test'`: always one of the status keys. */
  function CellStatus(c: Option<Cell>): (k: string)
    ensures k in Keys(StatusMap)
    ensures !(c.Some? && c.value.StringCell?) ==> k == DefaultStatus
  {
    match c
    case Some(StringCell(s)) => ImportedKeysAreKnown(s); StatusOfLabel(s)
    case _ => assert Keys(StatusMap)[0] == DefaultStatus; DefaultStatus
  }

  /**
   * `parseInt(row[column], 10) || 0` for a count column (an absent cell
   * parses to `NaN`): a number cell gives its own value back.
   */
  function CellCount(c: Option<Cell>): (n: int)
    ensures c.Some? && c.value.NumberCell? ==> n == c.value.n
    ensures c.Some? && c.value.StringCell? ==> n == CoerceCount(c.value.s)
    ensures c.None? ==> n == 0
  {
    match c
    case Some(StringCell(s)) => CoerceCount(s)
    case Some(NumberCell(n)) => ParseIntDecimal(n); CoerceCount(Decimal(n))
    case None => 0
  }

  /**
   * The record `importExcel` builds from one row; `None` when the date cell
   * is a serial `toISOString` cannot render, which aborts the whole import.
   */
  function ImportRow(row: Row): (r: Option<Record>)
    ensures r.None? <==> FormatExcelDate(CellOf(row, DateColumn)).None?
    ensures r.Some? ==> r.value.assetType in AssetKeys && r.value.status in Keys(StatusMap)
  {
    match FormatExcelDate(CellOf(row, DateColumn))
    case None => None
    case Some(date) =>
      Some(Record(
        CellText(CellOf(row, NameColumn)),
        CellAssetType(CellOf(row, AssetTypeColumn)),
        CellStatus(CellOf(row, StatusColumn)),
        date,
        CellCount(CellOf(row, PrivacyColumn)),
        CellCount(CellOf(row, SecurityColumn)),
        CellText(CellOf(row, RemarksColumn))))
  }

  /** `jsonData.map(...)`: all rows, or nothing when one of them throws. */
  function ImportRows(rows: seq<Row>): (rs: Option<seq<Record>>)
    ensures rs.Some? ==> |rs.value| == |rows|
    ensures rs.None? <==> exists i :: 0 <= i < |rows| && ImportRow(rows[i]).None?
  {
    MapAll(rows, ImportRow)
  }

  /** The imported records, when there are some, are exactly the rows' records in order. */
  lemma {:induction false} ImportRowsPointwise(rows: seq<Row>)
    requires ImportRows(rows).Some?
    ensures forall i :: 0 <= i < |rows| ==> ImportRow(rows[i]) == Some(ImportRows(rows).value[i])
  {
    MapAllPointwise(rows, ImportRow);
  }

  /** A record the export and the import carry through unchanged. */
  predicate Portable(r: Record) {
    && r.assetType in AssetKeys
    && r.status in Keys(StatusMap)
    && (r.deliveryDate == "" || IsDateShape(r.deliveryDate))
  }

  /**
   * Export followed by import gives the record back, provided its asset type
   * and status are known keys and its date is empty or `YYYY-MM-DD`.
   */
  lemma {:induction false} ExportImportRoundTrip(r: Record)
    requires Portable(r)
    ensures ImportRow(ExportRow(r)) == Some(r)
  {
    var row := ExportRow(r);
    DateCellRoundTrip(r);
    AssetTypeCellRoundTrip(r);
    StatusCellRoundTrip(r);
    CountCellsRoundTrip(r);
    TextCellsRoundTrip(r);
  }

  lemma {:induction false} DateCellRoundTrip(r: Record)
    requires r.deliveryDate == "" || IsDateShape(r.deliveryDate)
    ensures FormatExcelDate(CellOf(ExportRow(r), DateColumn)) == Some(r.deliveryDate)
  {
    assert CellOf(ExportRow(r), DateColumn) == Some(StringCell(r.deliveryDate));
    FormatStrings(r.deliveryDate);
  }

  lemma {:induction false} AssetTypeCellRoundTrip(r: Record)
    requires r.assetType in AssetKeys
    ensures CellAssetType(CellOf(ExportRow(r), AssetTypeColumn)) == r.assetType
  {
    assert CellOf(ExportRow(r), AssetTypeColumn) == Some(StringCell(AssetTypeLabel(r.assetType)));
    AssetTypeRoundTrip(r.assetType);
  }

  lemma {:induction false} StatusCellRoundTrip(r: Record)
    requires r.status in Keys(StatusMap)
    ensures CellStatus(CellOf(ExportRow(r), StatusColumn)) == r.status
  {
    assert CellOf(ExportRow(r), StatusColumn) == Some(StringCell(StatusLabel(r.status)));
    StatusRoundTrip(r.status);
  }

  lemma {:induction false} CountCellsRoundTrip(r: Record)
    ensures CellCount(CellOf(ExportRow(r), PrivacyColumn)) == r.privacyIssues
    ensures CellCount(CellOf(ExportRow(r), SecurityColumn)) == r.securityIssues
  {
    assert CellOf(ExportRow(r), PrivacyColumn) == Some(NumberCell(r.privacyIssues));
    assert CellOf(ExportRow(r), SecurityColumn) == Some(NumberCell(r.securityIssues));
  }

  lemma {:induction false} TextCellsRoundTrip(r: Record)
    ensures CellText(CellOf(ExportRow(r), NameColumn)) == r.name
    ensures CellText(CellOf(ExportRow(r), RemarksColumn)) == r.remarks
  {
    assert CellOf(ExportRow(r), NameColumn) == Some(StringCell(r.name));
    assert CellOf(ExportRow(r), RemarksColumn) == Some(StringCell(r.remarks));
  }

  /** The same for a whole export: importing what was exported restores the exported records. */
  lemma {:induction false} ExportImportRows(filtered: seq<Record>, projects: seq<Record>)
    requires ExportRows(filtered, projects).Some?
    requires forall r :: r in filtered + projects ==> Portable(r)
    ensures ImportRows(ExportRows(filtered, projects).value)
         == Some(if filtered != [] then filtered else projects)
  {
    var data := if filtered != [] then filtered else projects;
    assert forall r :: r in data ==> r in filtered + projects;
    ImportOfExported(data);
  }

  /** Importing the rows exported from portable records gives back those records, in order. */
  lemma {:induction false} ImportOfExported(data: seq<Record>)
    requires forall r :: r in data ==> Portable(r)
    ensures ImportRows(ExportAll(data)) == Some(data)
  {
    var rows := ExportAll(data);
    forall i | 0 <= i < |data|
      ensures ImportRow(rows[i]) == Some(data[i])
    {
      ExportImportRoundTrip(data[i]);
    }
    MapAllOfPointwise(rows, data, ImportRow);
  }

  // ---------------------------------------------------------------- storage

  /** A record as read back from storage, where either count may be missing. */
  datatype StoredRecord = StoredRecord(
    name: string,
    assetType: string,
    status: string,
    deliveryDate: string,
    privacyIssues: Option<int>,
    securityIssues: Option<int>,
    remarks: string)

  /** What the storage slot holds, once parsed. */
  datatype Blob =
    | Saved(items: seq<StoredRecord>)   // a JSON array of records
    | NotAList                          // valid JSON, but `.map` is not a function of it
    | Corrupt                           // `JSON.parse` throws

  function Persist(r: Record): StoredRecord {
    StoredRecord(r.name, r.assetType, r.status, r.deliveryDate, Some(r.privacyIssues), Some(r.securityIssues), r.remarks)
  }

  function PersistAll(rs: seq<Record>): (items: seq<StoredRecord>)
    ensures |items| == |rs|
  {
    seq(|rs|, i requires 0 <= i < |rs| => Persist(rs[i]))
  }

  /** `p.count || 0`: a missing (or zero) count reads as 0. */
  function CountOrZero(c: Option<int>): int {
    match c
    case Some(n) => n
    case None => 0
  }

  /** `{ ...p, privacyIssues: p.privacyIssues || 0, securityIssues: p.securityIssues || 0 }` */
  function Backfill(s: StoredRecord): (r: Record)
    ensures r.privacyIssues == (if s.privacyIssues.Some? then s.privacyIssues.value else 0)
    ensures r.securityIssues == (if s.securityIssues.Some? then s.securityIssues.value else 0)
  {
    Record(s.name, s.assetType, s.status, s.deliveryDate, CountOrZero(s.privacyIssues), CountOrZero(s.securityIssues), s.remarks)
  }

  function BackfillAll(items: seq<StoredRecord>): (rs: seq<Record>)
    ensures |rs| == |items|
  {
    seq(|items|, i requires 0 <= i < |items| => Backfill(items[i]))
  }

  /** Loading what was saved gives the same records back. */
  lemma {:induction false} LoadSaved(rs: seq<Record>)
    ensures BackfillAll(PersistAll(rs)) == rs
  {
    assert forall i :: 0 <= i < |rs| ==> Backfill(Persist(rs[i])) == rs[i];
  }

  /** A stored record without counts loads with both counts 0 and every other field kept. */
  lemma {:induction false} BackfillMissing(s: StoredRecord)
    requires s.privacyIssues.None? && s.securityIssues.None?
    ensures Backfill(s).privacyIssues == 0 && Backfill(s).securityIssues == 0
    ensures Persist(Backfill(s)) == s.(privacyIssues := Some(0), securityIssues := Some(0))
  {
  }

  /** What a chosen JSON file holds, once parsed. */
  datatype Payload =
    | ArrayPayload(items: seq<Record>)  // `Array.isArray(importedData)`
    | OtherJson                         // valid JSON that is not an array
    | Unparsable                        // `JSON.parse` throws

  // ---------------------------------------------------------------- the form

  /** The values of the modal's form fields, as the input elements hold them. */
  datatype Form = Form(
    name: string,
    assetType: string,
    status: string,
    deliveryDate: string,
    privacyIssues: string,
    securityIssues: string,
    remarks: string)

  predicate Trimmed(s: string) {
    s == "" || (!IsWhiteSpace(s[0]) && !IsWhiteSpace(s[|s| - 1]))
  }

  /** `clearForm`: the values the add dialog starts with. */
  const BlankForm := Form("", DefaultAssetType, DefaultStatus, "", "0", "0", "")

  /**
   * The record `saveProject` builds from the form: the name and remarks
   * trimmed of white space at both ends, each count the `parseInt` result
   * of its field or 0 when the field holds no number.
   */
  function RecordOfForm(f: Form): (r: Record)
    ensures Trimmed(r.name) && Trimmed(r.remarks)
    ensures r.privacyIssues == (if ParseInt(f.privacyIssues).Some? then ParseInt(f.privacyIssues).value else 0)
    ensures r.securityIssues == (if ParseInt(f.securityIssues).Some? then ParseInt(f.securityIssues).value else 0)
  {
    TrimMeaning(f.name);
    TrimMeaning(f.remarks);
    Record(Trim(f.name), f.assetType, f.status, f.deliveryDate,
           CoerceCount(f.privacyIssues), CoerceCount(f.securityIssues), Trim(f.remarks))
  }

  /**
   * A "valid date string" in the sense of the HTML Living Standard, section
   * 2.3.5.2: a year of four or more digits that is above 0, then `-MM-DD`
   * naming a day of that month.
   */
  predicate IsValidDateString(s: string) {
    var n := |s|;
    && n >= 10
    && AllDigits(s[..n - 6])
    && s[n - 6] == '-' && IsDigit(s[n - 5]) && IsDigit(s[n - 4])
    && s[n - 3] == '-' && IsDigit(s[n - 2]) && IsDigit(s[n - 1])
    && var year := DigitsValue(s[..n - 6]);
       var month := 10 * DigitValue(s[n - 5]) + DigitValue(s[n - 4]);
       var day := 10 * DigitValue(s[n - 2]) + DigitValue(s[n - 1]);
       year >= 1 && 1 <= month <= 12 && 1 <= day <= DaysInMonth(year, month)
  }

  /** What a select offering `options` holds once `v` is assigned: `''` when no option has that value. */
  function SelectValue(options: seq<string>, v: string): string {
    if v in options then v else ""
  }

  /** What a date input holds once `v` is assigned: `''` unless `v` is a valid date string. */
  function DateInputValue(v: string): string {
    if IsValidDateString(v) then v else ""
  }

  /**
   * `showEditModal`: the form filled with a record's fields. The selects
   * offer the keys of the two tables, the date input keeps only a valid
   * date, and the counts are written in decimal.
   */
  function FormOf(r: Record): Form {
    Form(r.name, SelectValue(AssetKeys, r.assetType), SelectValue(Keys(StatusMap), r.status),
         DateInputValue(r.deliveryDate), Decimal(r.privacyIssues), Decimal(r.securityIssues), r.remarks)
  }

  /**
   * Opening a record for editing and saving it untouched: the name and the
   * remarks come back trimmed, the counts unchanged, an asset type or status
   * that is no key of its table as `''`, and a date that is no valid date
   * string as `''`.
   */
  lemma {:induction false} EditSanitises(r: Record)
    ensures RecordOfForm(FormOf(r)) == r.(
      name := Trim(r.name),
      assetType := if r.assetType in AssetKeys then r.assetType else "",
      status := if r.status in Keys(StatusMap) then r.status else "",
      deliveryDate := if IsValidDateString(r.deliveryDate) then r.deliveryDate else "",
      remarks := Trim(r.remarks))
  {
    var e := RecordOfForm(FormOf(r));
    assert e.privacyIssues == r.privacyIssues by { ParseIntDecimal(r.privacyIssues); }
    assert e.securityIssues == r.securityIssues by { ParseIntDecimal(r.securityIssues); }
  }

  /**
   * Hence the edit gives the same record back exactly for the records the
   * form can hold: no surrounding white space in the name and remarks, known
   * keys, and an empty or valid date.
   */
  lemma {:induction false} EditUnchanged(r: Record)
    requires Trimmed(r.name) && Trimmed(r.remarks)
    requires r.assetType in AssetKeys && r.status in Keys(StatusMap)
    requires r.deliveryDate == "" || IsValidDateString(r.deliveryDate)
    ensures RecordOfForm(FormOf(r)) == r
  {
    EditSanitises(r);
    TrimTrimmed(r.name);
    TrimTrimmed(r.remarks);
  }

  /** A record with an unknown asset type and status and an impossible date loses all three on an edit. */
  lemma {:induction false} EditClearsUnknown()
    ensures var e := RecordOfForm(FormOf(Record("a", "foo", "x", "2024-13-45", 0, 0, "")));
      e.assetType == "" && e.status == "" && e.deliveryDate == ""
  {
    var r := Record("a", "foo", "x", "2024-13-45", 0, 0, "");
    EditSanitises(r);
    assert AssetKeys == ["app", "miniprogram", "wechat", "h5"];
    assert Keys(StatusMap) == ["initial-test", "re-test"];
    assert !IsValidDateString(r.deliveryDate) by {
      var s := r.deliveryDate;
      assert |s| == 10 && s[5] == '1' && s[6] == '3';
    }
  }

  /** The add dialog's blank form yields a record with an empty name, which `saveProject` rejects. */
  lemma {:induction false} BlankFormRejected()
    ensures RecordOfForm(BlankForm).name == ""
  {
    TrimMeaning(BlankForm.name);
  }
}
